=== FILE: README.md ===
# Service counter: a Dafny model

This project models the core of a small Unity game about a shop counter.
Customers are spawned into a fixed row of queue slots, walk to their slot
and wait there. One employee serves them in slot order:

1. walk to the customer's interact point;
2. show the request again;
3. walk to the nearest station providing the product;
4. gather for the station's duration;
5. walk back and deliver;
6. take the next waiting customer, or go home.

A delivery credits the station's price to the ledger and sends the customer
to the exit. The exit callback then releases the slot.

Each core component whose fields change is a Dafny class with those fields.
Its methods change them in place, and their `ensures` state the new state.
`Station`, whose fields are only read, is a datatype.
The pure parts are functions, with lemmas about them:

- the slot occupancy count;
- the least free slot;
- the first waiting occupant;
- the seeding order;
- the nearest-station scan;
- the definition table;
- the frame on which gathering completes.

Scene references that may be null are `Option` values or nullable class
references. Positions are `Vec3` values over reals. Distances are compared
through their squares.

The navigator (the NavMesh agent) is outside the model. Each tick receives
its report as a `NavReport` value: path pending, has a path, remaining
distance and stopping distance. The navigator moves the `position` fields
between ticks. A move order appears as the `destination` and `stopped`
fields. Time and frame time are parameters.

Modules:

- `Common`: optional values, positions, distances and the navigator report.
- `Products`: the two product identifier schemes.
- `Economy`: `MoneyManager`.
- `Config`: `GameConfig`.
- `Shop`: `Station` and `StationRegistry`.
- `Requests`: `CustomerRequest3D`.
- `Customers`: `CustomerFlow`.
- `Spawning`: `CustomerSpawner`.
- `Employees`: `EmployeeFlow`.

Two behaviours of the code are easy to miss. The model keeps both:

- The employee's arrival check has no straight-line fallback. Without a
  path the employee never arrives.
- At the occupancy cap the spawner returns before the spawn deadline is
  touched. The deadline moves only when a spawn happens.

The code has one delivery quirk, which the model keeps as written. Suppose
that after a delivery the next waiting customer's slot has no interact
point. The employee then stays in `Deliver`, with neither an interact point
nor a station. The next frame "delivers" to that customer: it credits 0 and
sends the customer to the exit. `EmployeeFlow.Valid` admits this
degenerate form of `Deliver`.

## Model

| member | source | states |
|---|---|---|
| Economy.MoneyManager.constructor | Assets/_Game/Script/Managers/MoneyManager.cs:8 | the balance starts at 0 |
| Economy.Credited | Assets/_Game/Script/Managers/MoneyManager.cs:19 | while the sum fits in 32 bits the new balance is exactly the old one plus `Accepted(amount)`, that is `max(0, amount)`, and is not below the old one; a non-positive amount leaves the balance unchanged |
| Economy.CreditedOverflow | Assets/_Game/Script/Managers/MoneyManager.cs:8-19 | a credit that takes the sum past `int.MaxValue` wraps: the balance becomes negative, below the old one, exactly 2^32 less than the true sum |
| Economy.MoneyManager.Add | Assets/_Game/Script/Managers/MoneyManager.cs:17-21 | the balance becomes `Credited(old balance, amount)`: grown by exactly `max(0, amount)` with 32-bit wrap-around; a non-positive amount leaves it unchanged |
| Config.DefinitionMapKeys | Assets/_Game/Script/Managers/GameConfig.cs:17-19 | a type is in the table iff some non-null entry of the list defines it; null entries contribute nothing |
| Config.DefinitionMapLastWins | Assets/_Game/Script/Managers/GameConfig.cs:19 | a type maps to its last definition in list order |
| Config.DefinitionMapTyped | Assets/_Game/Script/Managers/GameConfig.cs:19 | every table entry is stored under its own type |
| Config.LastDefinitionExists | Assets/_Game/Script/Managers/GameConfig.cs:18-19 | a type in the table maps to one of its definitions with no later definition of the type after it |
| Config.GameConfig.Default | Assets/_Game/Script/Managers/GameConfig.cs:8-9 | by default only `Water` is unlocked, there are no definitions and the table is empty |
| Config.GameConfig.constructor | Assets/_Game/Script/Managers/GameConfig.cs:13-20 | a configured component has woken up: its table is built from its definition list |
| Config.GameConfig.Awake | Assets/_Game/Script/Managers/GameConfig.cs:13-20 | the entry-by-entry loop leaves the table equal to the last-wins table of the definition list; both lists are unchanged |
| Config.GameConfig.GetUnlockedProducts | Assets/_Game/Script/Managers/GameConfig.cs:22 | returns the unlocked list itself, neither copied nor filtered |
| Config.GameConfig.GetDefinition | Assets/_Game/Script/Managers/GameConfig.cs:24-28 | none iff no non-null entry defines the type; otherwise the last definition of the type, which has that type |
| Shop.Nearest | Assets/_Game/Script/Shop/StationRegistry.cs:34-45 | the kept index is an entry that is non-null, provides the product and has a station point |
| Shop.NearestNoneIff | Assets/_Game/Script/Shop/StationRegistry.cs:31-47 | the scan finds nothing iff no entry is eligible |
| Shop.NearestIsFirstMinimum | Assets/_Game/Script/Shop/StationRegistry.cs:39-44 | the kept entry is at least as near as every eligible entry, and strictly nearer than every eligible entry before it: ties go to the earliest |
| Shop.StationRegistry.constructor | Assets/_Game/Script/Shop/StationRegistry.cs:21-25 | the list holds the stations found in the scene |
| Shop.StationRegistry.FindStation | Assets/_Game/Script/Shop/StationRegistry.cs:29-48 | the loop returns the entry the nearest-first scan keeps: none iff nothing is eligible; otherwise the product matches, there is a station point and no eligible station is nearer; the list is not modified |
| Requests.MapToProductId | Assets/_Game/Script/Characters/CustomerRequest3D.cs:93-102 | `Water` maps to `WaterBottle`, and so does every other type |
| Requests.MapToProductType | Assets/_Game/Script/Characters/CustomerRequest3D.cs:104-113 | `WaterBottle` maps to `Water`, and so does every other id |
| Requests.MappingRoundTrip | Assets/_Game/Script/Characters/CustomerRequest3D.cs:93-113 | the round trip through the type scheme yields `WaterBottle` for every id and is the identity only on `WaterBottle`; type to id to type yields `Water` |
| Requests.FirstPrefabIndex | Assets/_Game/Script/Characters/CustomerRequest3D.cs:84-87 | a found index is an entry for the requested type |
| Requests.FirstPrefabIndexIsFirst | Assets/_Game/Script/Characters/CustomerRequest3D.cs:82-90 | nothing is found iff no entry is for the type; every entry before the found one is for another type |
| Requests.CustomerRequest3D.constructor | Assets/_Game/Script/Characters/CustomerRequest3D.cs:25-32 | a fresh component shows no bubble and holds `WaterBottle` in the newer scheme |
| Requests.CustomerRequest3D.IsRequestVisible | Assets/_Game/Script/Characters/CustomerRequest3D.cs:26 | the request counts as visible exactly while a bubble instance exists |
| Requests.CustomerRequest3D.HideRequest | Assets/_Game/Script/Characters/CustomerRequest3D.cs:34-41 | afterwards no bubble is visible; with none visible it changes nothing; the product fields are kept |
| Requests.CustomerRequest3D.GetThoughtPrefab | Assets/_Game/Script/Characters/CustomerRequest3D.cs:82-90 | the loop returns the prefab of the first entry for the type, and none when no entry is for it |
| Requests.CustomerRequest3D.ShowRequestForType | Assets/_Game/Script/Characters/CustomerRequest3D.cs:44-57 | both product fields are set (the newer one to `MapToProductId(t)`); a bubble shows only when the anchor is set and the first entry for `t` has a prefab; otherwise none is visible |
| Requests.CustomerRequest3D.ShowRequestForId | Assets/_Game/Script/Characters/CustomerRequest3D.cs:60-67 | the id written first is overwritten by the round trip: the request always ends as `WaterBottle` / `Water` |
| Requests.CustomerRequest3D.RandomizeRequestFromUnlocked | Assets/_Game/Script/Characters/CustomerRequest3D.cs:69-80 | without configuration or with an empty unlocked list the request is `Water`; otherwise it is one of the unlocked types; either way the bubble shown is the one for the requested type (the first prefab entry for it, under the anchor), none otherwise |
| Customers.ArrivalThreshold | Assets/_Game/Script/Characters/CustomerFlow.cs:212 | the threshold is the larger of the snap distance and the stopping distance plus 0.02 |
| Customers.CustomerArrived | Assets/_Game/Script/Characters/CustomerFlow.cs:207-221 | never arrived while a path is pending; with a path, arrived iff the remaining distance is within the snap distance or within the stopping distance plus 0.02; without one, being within the snap distance in a straight line suffices, and arrival means being within one of the two in a straight line |
| Customers.CustomerArrivalCases | Assets/_Game/Script/Characters/CustomerFlow.cs:207-221 | never arrived while a path is pending; with a path the remaining distance is compared with the threshold, without one the straight-line distance; a customer standing on its target has arrived |
| Customers.CustomerFlow.Instantiate | Assets/_Game/Script/Characters/CustomerFlow.cs:18-36 | a new customer starts in `MoveToQueue` with no anchors, at the spawn position |
| Customers.CustomerFlow.ArrivedQueue | Assets/_Game/Script/Characters/CustomerFlow.cs:31 | a customer counts as arrived at its queue exactly while it is `Waiting`; no position is consulted |
| Customers.CustomerFlow.Start | Assets/_Game/Script/Characters/CustomerFlow.cs:67-71 | the request bubble is hidden; a customer with a queue point is sent there with a forced move |
| Customers.CustomerFlow.SetSlot | Assets/_Game/Script/Characters/CustomerFlow.cs:93-100 | the three anchors are replaced; a forced move with a queue point heads there and restarts the cooldown; otherwise the movement state is kept |
| Customers.CustomerFlow.GoToQueue | Assets/_Game/Script/Characters/CustomerFlow.cs:102-119 | no queue point: nothing changes; otherwise `MoveToQueue`, and only `force` reissues the destination and restarts the cooldown |
| Customers.CustomerFlow.Leave | Assets/_Game/Script/Characters/CustomerFlow.cs:121-135 | with an exit point: `Leaving`, heading there, cooldown restarted; without one: nothing changes |
| Customers.CustomerFlow.Repath | Assets/_Game/Script/Characters/CustomerFlow.cs:144-150 | the destination is reissued only when the cooldown has run out and there is no path; the cooldown restarts whenever it has run out |
| Customers.CustomerFlow.TickMoveToQueue | Assets/_Game/Script/Characters/CustomerFlow.cs:137-154 | no queue point: nothing changes; arrival is judged on the navigator's report after the repath; on arrival: `Waiting`, stopped, exactly on the queue point; otherwise still walking, with the repath rule applied to the report before it |
| Customers.CustomerFlow.EnterWaitingSnapToPoint | Assets/_Game/Script/Characters/CustomerFlow.cs:156-169 | `Waiting`, stopped, with no path and exactly on the queue point |
| Customers.CustomerFlow.TickWaiting | Assets/_Game/Script/Characters/CustomerFlow.cs:171-186 | a drift beyond the keep distance snaps back onto the queue point; afterwards the customer is within the keep distance; the state is kept |
| Customers.CustomerFlow.TickLeaving | Assets/_Game/Script/Characters/CustomerFlow.cs:188-205 | no exit point: nothing changes and the callback does not fire; otherwise the repath rule applies to the report before the repath, and the callback fires iff the report after it says the customer has arrived at the exit |
| Customers.CustomerFlow.Update | Assets/_Game/Script/Characters/CustomerFlow.cs:73-91 | the callback fires only from `Leaving` at the exit; `Waiting` is reached only from `MoveToQueue` by arriving on the queue point; `Waiting` and `Leaving` are never left by a tick, and `MoveToQueue` only ever becomes `Waiting`; a tick with a missing anchor changes nothing; walking to the queue point, the customer arrives into `Waiting`, stopped, with no path, exactly on the point, or else keeps walking with the destination reissued only after the cooldown when the navigator has lost its path; walking to the exit follows the same repath rule; the cooldown restarts whenever it has run out |
| Spawning.Occupied | Assets/_Game/Script/Managers/CustomerSpawner.cs:99-105 | the occupancy count never exceeds the number of slots |
| Spawning.OccupiedExtremes | Assets/_Game/Script/Managers/CustomerSpawner.cs:99-105 | the count equals the slot count iff every slot is occupied, and is 0 iff none is |
| Spawning.OccupiedUpdate | Assets/_Game/Script/Managers/CustomerSpawner.cs:159-160 | filling a free slot raises the count by one; freeing an occupied one lowers it by one |
| Spawning.FirstFree | Assets/_Game/Script/Managers/CustomerSpawner.cs:107-113 | the least free index, or -1 exactly when every slot is occupied |
| Spawning.FirstWaiting | Assets/_Game/Script/Managers/CustomerSpawner.cs:174-182 | an offered index holds a non-null, non-excluded, waiting occupant |
| Spawning.FirstWaitingIsFirst | Assets/_Game/Script/Managers/CustomerSpawner.cs:169-185 | nothing is offered iff no occupant is servable; every slot before the offered one holds none |
| Spawning.FirstWaitingUnique | Assets/_Game/Script/Managers/CustomerSpawner.cs:174-182 | a servable slot with only unservable slots before it is the one offered |
| Spawning.NextInServiceOrder | Assets/_Game/Script/Managers/CustomerSpawner.cs:169-185 | with no customer in two slots, asking again while excluding the customer just offered yields the next servable slot after it, or nothing iff none follows |
| Spawning.SeededPrefix | Assets/_Game/Script/Managers/CustomerSpawner.cs:66-75 | scanning further only appends to the list of seeded customers |
| Spawning.SeededDistinct | Assets/_Game/Script/Managers/CustomerSpawner.cs:69 | seeding never places the same customer twice |
| Spawning.SeededOccupied | Assets/_Game/Script/Managers/CustomerSpawner.cs:66-75 | slots filled from the front with seeded customers hold as many customers as fit |
| Spawning.CustomerSpawner.NoCustomerTwice | Assets/_Game/Script/Managers/CustomerSpawner.cs:25-26 | when the array and the map agree, no customer stands in two slots |
| Spawning.CustomerSpawner.constructor | Assets/_Game/Script/Managers/CustomerSpawner.cs:9-27 | the configuration is kept; the slots are unallocated, the map is empty and the array and map agree |
| Spawning.CustomerSpawner.CountOccupied | Assets/_Game/Script/Managers/CustomerSpawner.cs:99-105 | the loop returns the occupancy count; it equals the slot count iff every slot is occupied |
| Spawning.CustomerSpawner.GetFirstFreeSlotIndex | Assets/_Game/Script/Managers/CustomerSpawner.cs:107-113 | the least free index; -1 iff there are no slots or all are occupied |
| Spawning.CustomerSpawner.AssignCustomerToSlot | Assets/_Game/Script/Managers/CustomerSpawner.cs:133-148 | the array and the map both record the customer at the slot and still agree; the customer gets the slot's queue point, its interact point (none when that list is too short) and the exit point; a forced move with a queue point sends it there with the cooldown restarted, and otherwise its movement state is kept |
| Spawning.CustomerSpawner.Start | Assets/_Game/Script/Managers/CustomerSpawner.cs:50-78 | with no queue points nothing is allocated; otherwise the slots hold the scene's customers in scan order, without repeats, from slot 0 until the slots run out; the occupancy is the smaller of both counts; every seated customer carries its slot's queue, interact and exit points and was sent to its queue point by a forced move; the deadline is one interval away |
| Spawning.CustomerSpawner.SeedExisting | Assets/_Game/Script/Managers/CustomerSpawner.cs:65-75 | the seeding loop fills the slots with the seeded list cut to the slot count; every seated customer carries its slot's anchors and heads for its queue point |
| Spawning.CustomerSpawner.SeatExisting | Assets/_Game/Script/Managers/CustomerSpawner.cs:68-74 | null entries and customers already placed are skipped and left untouched; a new customer takes the next slot with its queue, interact and exit points and a forced move to the queue point; the scan stops exactly when no slot is free; customers already seated keep their anchors |
| Spawning.CustomerSpawner.TrySpawnIntoFreeSlot | Assets/_Game/Script/Managers/CustomerSpawner.cs:115-131 | with every slot occupied nothing changes; otherwise a fresh customer at the spawn point takes the least free slot with its anchors and, with a queue point, heads for it by a forced move (`MoveToQueue`, that destination, moving, cooldown restarted) |
| Spawning.CustomerSpawner.Update | Assets/_Game/Script/Managers/CustomerSpawner.cs:80-97 | a spawn happens iff the configuration is complete, occupancy is below `min(maxCustomers, slots)` and the deadline has passed; only then does the deadline move; the occupancy never passes the cap; a cap of 0 or less never spawns |
| Spawning.CustomerSpawner.HandleCustomerExited | Assets/_Game/Script/Managers/CustomerSpawner.cs:150-168 | only the slot recorded for the customer is cleared, and the customer is forgotten; no other slot moves; an unknown customer, or a second call, changes nothing |
| Spawning.CustomerSpawner.GetNextWaitingCustomer | Assets/_Game/Script/Managers/CustomerSpawner.cs:169-185 | the lowest-index occupant that is waiting and not excluded; null iff there is none or the slots are unallocated |
| Spawning.CustomerSpawner.FrontCustomer | Assets/_Game/Script/Managers/CustomerSpawner.cs:30-42 | the same answer as `GetNextWaitingCustomer(null)` |
| Employees.GatherDuration | Assets/_Game/Script/Characters/EmployeeFlow.cs:364 | the duration is the larger of 0.1 and the station's gather time |
| Employees.EmployeeArrived | Assets/_Game/Script/Characters/EmployeeFlow.cs:418-421 | the employee never counts as arrived without a computed path or while one is pending; with a path, iff the remaining distance is within the stopping distance plus 0.05 |
| Employees.Credit | Assets/_Game/Script/Characters/EmployeeFlow.cs:255-259 | the credit is the station's price when non-negative, 0 for a negative price or no station |
| Employees.CompletionFrame | Assets/_Game/Script/Characters/EmployeeFlow.cs:364-371 | the completing frame is one of the frames given |
| Employees.CompletionFrameIsFirst | Assets/_Game/Script/Characters/EmployeeFlow.cs:364-371 | gathering completes on frame `k` iff the accumulated time first reaches the duration on that frame (inclusive) |
| Employees.CompletionFrameIsLast | Assets/_Game/Script/Characters/EmployeeFlow.cs:364-371 | gathering completes on the last frame given iff the total first reaches the duration on that frame |
| Employees.ElapsedNonNegative | Assets/_Game/Script/Characters/EmployeeFlow.cs:365 | with non-negative frame times the accumulated gathering time is never negative |
| Employees.CompletionFrameNone | Assets/_Game/Script/Characters/EmployeeFlow.cs:364-371 | gathering does not complete iff the total time stays below the duration |
| Employees.GatheringEnds | Assets/_Game/Script/Characters/EmployeeFlow.cs:360-379 | with every frame at least `eps > 0` long, enough frames to cover the duration complete the gathering |
| Employees.EmployeeFlow.constructor | Assets/_Game/Script/Characters/EmployeeFlow.cs:30-38 | a placed employee is idle with no customer, no station and nothing carried |
| Employees.EmployeeFlow.Start | Assets/_Game/Script/Characters/EmployeeFlow.cs:58-62 | the employee stays idle and heads home when there is a home and it is on the mesh |
| Employees.EmployeeFlow.EnsureOnNavMesh | Assets/_Game/Script/Characters/EmployeeFlow.cs:65-77 | succeeds iff already on the mesh or a mesh point is found; a failure changes nothing; only the on-mesh flag can change, so `Valid` is kept |
| Employees.EmployeeFlow.StartMoveTo | Assets/_Game/Script/Characters/EmployeeFlow.cs:79-89 | on the mesh: moving to the point; off it: nothing changes |
| Employees.EmployeeFlow.StopMove | Assets/_Game/Script/Characters/EmployeeFlow.cs:91-96 | on the mesh: stopped with no path; off it: nothing changes |
| Employees.EmployeeFlow.HasArrived | Assets/_Game/Script/Characters/EmployeeFlow.cs:415-422 | off the mesh never arrived; arrival needs a finished path; on the mesh it is exactly `EmployeeArrived` |
| Employees.EmployeeFlow.IsNear | Assets/_Game/Script/Characters/EmployeeFlow.cs:424-427 | near iff the straight-line distance is at most 0.3 (squared distance at most 0.09); a point is near itself |
| Employees.EmployeeFlow.SetTargetCustomer | Assets/_Game/Script/Characters/EmployeeFlow.cs:281-289 | the customer and its request become the target; the interact point is overwritten only by the customer's non-null one |
| Employees.EmployeeFlow.KeepAtIdlePoint | Assets/_Game/Script/Characters/EmployeeFlow.cs:292-298 | heads home when not near it; with no home, or near it, nothing changes |
| Employees.EmployeeFlow.GoIdle | Assets/_Game/Script/Characters/EmployeeFlow.cs:300-306 | becomes idle and heads home when there is one; customer, interact point and station are kept |
| Employees.EmployeeFlow.GoToInteractPoint | Assets/_Game/Script/Characters/EmployeeFlow.cs:308-318 | a missing interact point is taken from the customer; with one: `GoToInteract`, heading there; without: the state is kept |
| Employees.EmployeeFlow.TryPickNextCustomerOrIdle | Assets/_Game/Script/Characters/EmployeeFlow.cs:223-238 | the first waiting occupant becomes the target, takes its interact point when it has one, and with a known point the employee is in `GoToInteract` walking there; with no waiting occupant target and state are kept and the employee walks home when it is not near home |
| Employees.EmployeeFlow.ActivateCustomerRequest | Assets/_Game/Script/Characters/EmployeeFlow.cs:321-328 | with a `WaterBottle` request the request becomes `Water` / `WaterBottle` and shows the bubble of the first prefab entry for `Water` when the anchor is set, none otherwise; any other request, or no request component, is left unchanged |
| Employees.EmployeeFlow.DecideAndGoToStation | Assets/_Game/Script/Characters/EmployeeFlow.cs:330-346 | ends in `GoToStation` iff there is a request, a registry and an eligible station, walking to the nearest one's point; otherwise idle and walking home when there is a home; the station is the registry's answer |
| Employees.EmployeeFlow.BeginGather | Assets/_Game/Script/Characters/EmployeeFlow.cs:348-358 | `Gathering` with the timer at 0 |
| Employees.EmployeeFlow.ClearCarryItem | Assets/_Game/Script/Characters/EmployeeFlow.cs:393-400 | nothing is held afterwards |
| Employees.EmployeeFlow.SpawnCarryItem | Assets/_Game/Script/Characters/EmployeeFlow.cs:381-391 | an item is held iff the station has one and there is a hand slot |
| Employees.EmployeeFlow.GoReturnToCustomer | Assets/_Game/Script/Characters/EmployeeFlow.cs:402-412 | the customer's own interact point wins; with one: `ReturnToCustomer`, heading there; without any: idle |
| Employees.EmployeeFlow.TickGather | Assets/_Game/Script/Characters/EmployeeFlow.cs:360-379 | no station: idle; otherwise the timer grows by the frame time, and once it reaches the duration (inclusive) the item is taken and the employee walks back |
| Employees.EmployeeFlow.DeliverAndClearTarget | Assets/_Game/Script/Characters/EmployeeFlow.cs:241-279 | the bubble is hidden, nothing is held, exactly `Credit(station)` is credited, the served customer heads for the exit, and target, request, interact point and station are cleared; returns the served customer |
| Employees.EmployeeFlow.TickGoToInteract | Assets/_Game/Script/Characters/EmployeeFlow.cs:119-132 | on arrival the agent stops with no path and the state becomes `ActivateRequest`; otherwise nothing changes |
| Employees.EmployeeFlow.TickActivateRequest | Assets/_Game/Script/Characters/EmployeeFlow.cs:134-143 | the request is shown again without changing the product: a `WaterBottle` request becomes the `Water` bubble (the first matching thought prefab, when there is an anchor), and any other request is left untouched; then `GoToStation`, walking to the station point, iff an eligible station exists for it, and otherwise idle and walking home |
| Employees.EmployeeFlow.TickGoToStation | Assets/_Game/Script/Characters/EmployeeFlow.cs:145-163 | on arrival the agent stops with no path and gathering starts with the timer at 0; otherwise nothing changes |
| Employees.EmployeeFlow.TickReturnToCustomer | Assets/_Game/Script/Characters/EmployeeFlow.cs:175-186 | on arrival the agent stops with no path and the state becomes `Deliver`; otherwise nothing changes |
| Employees.EmployeeFlow.TickIdle | Assets/_Game/Script/Characters/EmployeeFlow.cs:106-117 | idle is left only for `GoToInteract` toward a target that is waiting; a kept target that is waiting is served again, walking to the interact point iff one is known; otherwise the first waiting occupant becomes the target with its interact point, walking there when it is known; with none the employee stays idle with its target and walks home when it is not near home |
| Employees.EmployeeFlow.TickDeliver | Assets/_Game/Script/Characters/EmployeeFlow.cs:191-216 | after the delivery the target is the first waiting occupant other than the customer just served, with that slot's interact point, walking there when it has one and staying in `Deliver` otherwise; with none the employee is idle with no target and walks home when there is a home; the served customer's bubble is hidden |
| Employees.EmployeeFlow.Step | Assets/_Game/Script/Characters/EmployeeFlow.cs:104-218 | with the agent on the mesh, the state switch makes exactly one step: walking states stop on arrival and otherwise keep their move order; `ActivateRequest` leaves for the chosen station (ready, with the requested product, as destination) or for home; gathering adds the frame time and leaves with the item when the gather time is reached; delivery credits the balance and moves the served customer out; `IdleAtHome` and `Deliver` pick the next waiting customer and head to its interact point; the balance changes only in `Deliver`; the target customer is touched only in `Deliver` and its request only in `ActivateRequest` (shown again as above) and `Deliver` (hidden); `Valid` is kept |
| Employees.EmployeeFlow.Update | Assets/_Game/Script/Characters/EmployeeFlow.cs:98-220 | off the mesh nothing changes, neither the employee nor its target customer and request; each state makes its one step, with the move order of that step: an arrival stops the agent and drops the path, a walking state that has not arrived keeps its order, and the chosen station, customer or home is the destination; from `IdleAtHome` and `Deliver` the next customer is chosen as in `TickIdle` and `TickDeliver`; gathering keeps or takes the item as in `TickGather`; only a delivery changes the balance; the target customer is touched only by a delivery and its request only by `ActivateRequest` (shown again) and a delivery (hidden); `ActivateRequest` always leaves in the same frame; the frame invariant `Valid` is kept |

## Left out

- The navigator is external. Path finding, `SetDestination`, `ResetPath`, `Warp` and `SamplePosition` are not modelled. Its per-tick report is a parameter. Its effects are the `position`, `destination`, `stopped` and `onNavMesh` fields.
- Employees.EmployeeFlow.EnsureOnNavMesh: whether the mesh sample hits is the `sampleHit` parameter. The warp position is not modelled.
- Employees.EmployeeFlow.StartMoveTo: its own warp attempt when the agent is off the mesh is not modelled. The move is issued only when `onNavMesh` holds.
- Facing (`NavMeshFaceController` and every `face?.…` call) is not modelled, because it is rotation only.
- The station progress ring (`ShowProgress`/`HideProgress`) and the money changed event are not modelled. Both are UI.
- `Instantiate` and `Destroy` of customers, thought bubbles and carried props are not modelled. A spawned customer is a fresh object, a bubble is the identity of its prefab, and a carried prop is the `carrying` flag. A destroyed customer simply stays allocated.
- The exit delegate (`OnExited` with `+=` and `-=`) becomes the `exited` result of `CustomerFlow.Update`. The caller passes that customer to `CustomerSpawner.HandleCustomerExited`.
- Unity's frame scheduling is outside the model. Which component's `Update` runs when is left to the caller, and each call runs to completion.
- Singletons (`I`) and their duplicate-destroy logic are not modelled. The spawner, registry and ledger are passed as nullable parameters.
- Customers.CustomerFlow.Update: the component is assumed to have its navigator. The null-agent early return, `EnsureAgentEnabled` and `RemoveObstacleIfAny` are not modelled.
- Employees.EmployeeFlow.HasArrived: the agent-enabled flag is not modelled. An agent that exists is taken to be enabled.
- Times, distances and the gather timer are reals, not IEEE floats. The balance and the prices are 32-bit integers, with the wrap-around of C#'s unchecked `+=` written out.
- The navigator's report is read twice per customer tick. `nav` is read before the repath and `navAfter` after it: a new destination can change what the navigator reports. How it changes is the navigator's business and is not modelled.
- Vector3.Distance is compared through squared distances, which order exactly as distances do. `float.MaxValue` as the initial best distance in `FindStation` becomes "no best yet".
- The random draw in `RandomizeRequestFromUnlocked` is a nondeterministic choice of an index in range.
- The `ProductId` and `ProductType` enum files are not part of this model. Only `WaterBottle` and `Water` are named; every other value is kept as a code.
- Requests.CustomerRequest3D.RandomizeRequestFromUnlocked: a null unlocked list is not distinguished from an empty one. Both request `Water` in the code.
- Requests.CustomerRequest3D.ShowRequestForType and Requests.CustomerRequest3D.ShowRequestForId are the two `ShowRequest` overloads. Dafny has no overloading.
- Spawning.CustomerSpawner.TrySpawnIntoFreeSlot: the spawned customer's request component gets no `GameConfig` reference. A reference held by the prefab is not modelled.
- Spawning.CustomerSpawner.Start: the scene's customers arrive as a parameter, in the order the scene search returns them. A null queue-point list is the empty list. The warning logs are not modelled.
- Spawning.CustomerSpawner.AssignCustomerToSlot: it is required to receive a free slot and a customer not yet bound. Both callers guarantee this, and the code itself does not check it.
- Employees.EmployeeFlow.Start: the employee is required to be idle, the declared default state. A state set in the inspector before the first frame is not modelled.
- Employees.EmployeeFlow.constructor: a target customer pre-assigned in the inspector is not modelled. The employee starts with none.
- Employees.EmployeeFlow.Update: the frame time is required to be non-negative, as Unity's is.
- The loops of `CustomerSpawner.Start` are split into `SeedExisting` (the scan) and `SeatExisting` (one step of it). Together they are the code's single `foreach`.
- `Reset`, `Awake` and `OnDrawGizmos` editor hooks of the components are not modelled, apart from `GameConfig.Awake` and `StationRegistry.Awake` (the registry's constructor).

=== FILE: common.dfy ===
/**
 * Shared vocabulary of the service-counter model: optional values (the
 * C# `null`), world positions, distance comparisons and the navigator's
 * per-tick telemetry.
 */
module Common {

  /** A nullable value: `None` stands for a C# `null` reference. */
  datatype Option<+T> = None | Some(value: T)

  /** A world position (UnityEngine.Vector3), with real coordinates. */
  datatype Vec3 = Vec3(x: real, y: real, z: real)

  function Max(a: real, b: real): (m: real)
    ensures m >= a && m >= b && (m == a || m == b)
  {
    if a >= b then a else b
  }

  function MinInt(a: int, b: int): (m: int)
    ensures m <= a && m <= b && (m == a || m == b)
  {
    if a <= b then a else b
  }

  /** The C# `int`: a 32-bit two's complement integer. */
  newtype int32 = x: int | -0x8000_0000 <= x < 0x8000_0000

  /** Unchecked 32-bit arithmetic (C#'s default): `x` reduced modulo 2^32
      into the `int` range. A value already in range is kept. */
  function Wrap32(x: int): (r: int32)
    ensures -0x8000_0000 <= x < 0x8000_0000 ==> r as int == x
    ensures (x - r as int) % 0x1_0000_0000 == 0
  {
    ((x + 0x8000_0000) % 0x1_0000_0000 - 0x8000_0000) as int32
  }

  /** Squared Euclidean distance. Distances are compared through their
      squares, which orders them exactly as the square roots would. */
  function SqDist(a: Vec3, b: Vec3): (d: real)
    ensures d >= 0.0
  {
    (a.x - b.x) * (a.x - b.x) + (a.y - b.y) * (a.y - b.y) + (a.z - b.z) * (a.z - b.z)
  }

  /** `Vector3.Distance(a, b) <= r`. */
  predicate DistWithin(a: Vec3, b: Vec3, r: real)
  {
    r >= 0.0 && SqDist(a, b) <= r * r
  }

  /** `Vector3.Distance(a, b) > r`. */
  predicate DistExceeds(a: Vec3, b: Vec3, r: real)
  {
    !DistWithin(a, b, r)
  }

  /** A point is always within any non-negative radius of itself, so a
      position that has just been snapped onto a point has no drift. */
  lemma NoDriftAtPoint(p: Vec3, r: real)
    requires r >= 0.0
    ensures DistWithin(p, p, r) && !DistExceeds(p, p, r)
  {
  }

  /**
   * What the navigator (NavMeshAgent) reports to its owner at the start of
   * a tick. The navigator itself is external: it moves the agent's
   * `position` between ticks and computes paths.
   */
  datatype NavReport = NavReport(
    pathPending: bool,
    hasPath: bool,
    remainingDistance: real,
    stoppingDistance: real)
}

=== FILE: customer_flow.dfy ===
/**
 * The customer state machine: walk to the bound queue slot, wait there,
 * walk to the exit. Movement itself belongs to the navigator: it moves
 * `position` between ticks and reports its telemetry as a `NavReport`.
 */
module Customers {

  import opened Common
  import opened Products
  import opened Requests

  datatype CustomerState = MoveToQueue | Waiting | Leaving

  /** The tuning values of a customer prefab. */
  datatype CustomerTuning = CustomerTuning(
    arriveSnapDistance: real,
    keepSnapDistance: real,
    setDestinationCooldown: real)

  /** The arrival threshold: the snap distance, or slightly more than the
      navigator's own stopping distance when that is larger. */
  function ArrivalThreshold(arriveSnapDistance: real, stoppingDistance: real): (th: real)
    ensures th >= arriveSnapDistance && th >= stoppingDistance + 0.02
    ensures th == arriveSnapDistance || th == stoppingDistance + 0.02
  {
    Max(arriveSnapDistance, stoppingDistance + 0.02)
  }

  /**
   * Whether a customer at `position` has arrived at `target`: never while a
   * path is being computed; otherwise the remaining path distance is
   * compared with the threshold when a path exists, and the straight-line
   * distance when none does.
   */
  function CustomerArrived(position: Vec3, target: Vec3, nav: NavReport, arriveSnapDistance: real): (r: bool)
    ensures nav.pathPending ==> !r
    ensures !nav.pathPending && nav.hasPath ==>
              (r <==> nav.remainingDistance <= arriveSnapDistance
                      || nav.remainingDistance <= nav.stoppingDistance + 0.02)
    ensures !nav.pathPending && !nav.hasPath && arriveSnapDistance >= 0.0 && DistWithin(position, target, arriveSnapDistance) ==> r
    ensures r && !nav.hasPath ==>
              DistWithin(position, target, arriveSnapDistance) || DistWithin(position, target, nav.stoppingDistance + 0.02)
  {
    !nav.pathPending
    && var th := ArrivalThreshold(arriveSnapDistance, nav.stoppingDistance);
       if nav.hasPath then nav.remainingDistance <= th else DistWithin(position, target, th)
  }

  /** The two branches of the arrival check, stated separately. */
  lemma CustomerArrivalCases(position: Vec3, target: Vec3, nav: NavReport, arrive: real)
    ensures nav.pathPending ==> !CustomerArrived(position, target, nav, arrive)
    ensures !nav.pathPending && nav.hasPath ==>
              (CustomerArrived(position, target, nav, arrive)
               <==> nav.remainingDistance <= ArrivalThreshold(arrive, nav.stoppingDistance))
    ensures !nav.pathPending && !nav.hasPath ==>
              (CustomerArrived(position, target, nav, arrive)
               <==> DistWithin(position, target, ArrivalThreshold(arrive, nav.stoppingDistance)))
    ensures !nav.pathPending && !nav.hasPath && position == target && arrive >= 0.0 ==>
              CustomerArrived(position, target, nav, arrive)
  {
  }

  class CustomerFlow {
    const tuning: CustomerTuning
    /** The request component on the same object, if any. */
    const request: CustomerRequest3D?

    /** Anchors handed over by the spawner. */
    var queuePoint: Option<Vec3>
    var employeeInteractPoint: Option<Vec3>
    var exitPoint: Option<Vec3>

    var state: CustomerState
    var nextRepathTime: real

    /** The transform position; the navigator moves it between ticks. */
    var position: Vec3
    /** The navigator's destination; `None` after a path reset. */
    var destination: Option<Vec3>
    /** The navigator's `isStopped` flag. */
    var stopped: bool

    /** A customer just instantiated at `at`, not yet bound to a slot. */
    constructor Instantiate(t: CustomerTuning, req: CustomerRequest3D?, at: Vec3)
      ensures tuning == t && request == req && position == at
      ensures state == MoveToQueue && queuePoint.None? && employeeInteractPoint.None? && exitPoint.None?
      ensures destination.None? && !stopped && nextRepathTime == 0.0
    {
      tuning := t;
      request := req;
      queuePoint, employeeInteractPoint, exitPoint := None, None, None;
      state := MoveToQueue;
      nextRepathTime := 0.0;
      position := at;
      destination := None;
      stopped := false;
    }

    function ArrivedQueue(): (r: bool)
      reads this
      ensures r <==> state == Waiting
    {
      state == Waiting
    }

    /** The component's first frame: the request is hidden, and a customer
        that already has a queue point heads for it. */
    method Start(now: real)
      modifies this, request
      ensures request != null ==> !request.IsRequestVisible()
      ensures queuePoint == old(queuePoint) && employeeInteractPoint == old(employeeInteractPoint)
      ensures exitPoint == old(exitPoint) && position == old(position)
      ensures queuePoint.Some? ==>
                state == MoveToQueue && !stopped && destination == queuePoint
                && nextRepathTime == now + tuning.setDestinationCooldown
      ensures queuePoint.None? ==>
                state == old(state) && destination == old(destination)
                && stopped == old(stopped) && nextRepathTime == old(nextRepathTime)
    {
      if request != null {
        request.HideRequest();
      }
      if queuePoint.Some? {
        GoToQueue(true, now);
      }
    }

    /** Binds the customer to a slot's anchors; with `forceMove` it heads
        for the queue point straight away. */
    method SetSlot(q: Option<Vec3>, interact: Option<Vec3>, ex: Option<Vec3>, forceMove: bool, now: real)
      modifies this
      ensures queuePoint == q && employeeInteractPoint == interact && exitPoint == ex
      ensures position == old(position)
      ensures forceMove && q.Some? ==>
                state == MoveToQueue && !stopped && destination == q
                && nextRepathTime == now + tuning.setDestinationCooldown
      ensures !forceMove || q.None? ==>
                state == old(state) && destination == old(destination)
                && stopped == old(stopped) && nextRepathTime == old(nextRepathTime)
    {
      queuePoint := q;
      employeeInteractPoint := interact;
      exitPoint := ex;
      if forceMove {
        GoToQueue(true, now);
      }
    }

    /**
     * Heads for the queue point; a no-op without one. Only `force` resets
     * the path, issues the destination and restarts the repath cooldown.
     */
    method GoToQueue(force: bool, now: real)
      modifies this
      ensures queuePoint == old(queuePoint) && employeeInteractPoint == old(employeeInteractPoint)
      ensures exitPoint == old(exitPoint) && position == old(position)
      ensures queuePoint.None? ==> unchanged(this)
      ensures queuePoint.Some? ==> state == MoveToQueue && !stopped
      ensures queuePoint.Some? && force ==>
                destination == queuePoint && nextRepathTime == now + tuning.setDestinationCooldown
      ensures !force ==> destination == old(destination) && nextRepathTime == old(nextRepathTime)
    {
      if queuePoint.None? {
        return;
      }
      state := MoveToQueue;
      stopped := false;
      if force {
        destination := queuePoint;
        nextRepathTime := now + tuning.setDestinationCooldown;
      }
    }

    /** Heads for the exit; a complete no-op without an exit point. */
    method Leave(now: real)
      modifies this
      ensures queuePoint == old(queuePoint) && employeeInteractPoint == old(employeeInteractPoint)
      ensures exitPoint == old(exitPoint) && position == old(position)
      ensures exitPoint.None? ==> unchanged(this)
      ensures exitPoint.Some? ==>
                state == Leaving && !stopped && destination == exitPoint
                && nextRepathTime == now + tuning.setDestinationCooldown
    {
      if exitPoint.None? {
        return;
      }
      state := Leaving;
      stopped := false;
      destination := exitPoint;
      nextRepathTime := now + tuning.setDestinationCooldown;
    }

    /** Re-issues `target` as destination when the cooldown has run out and
        the navigator has no path; the cooldown restarts whenever it has
        run out. */
    method Repath(now: real, nav: NavReport, target: Vec3)
      modifies this
      ensures queuePoint == old(queuePoint) && employeeInteractPoint == old(employeeInteractPoint)
      ensures exitPoint == old(exitPoint) && position == old(position)
      ensures state == old(state) && stopped == old(stopped)
      ensures nextRepathTime == if now >= old(nextRepathTime)
                                then now + tuning.setDestinationCooldown else old(nextRepathTime)
      ensures destination == if now >= old(nextRepathTime) && !nav.hasPath
                             then Some(target) else old(destination)
    {
      if now >= nextRepathTime {
        if !nav.hasPath {
          destination := Some(target);
        }
        nextRepathTime := now + tuning.setDestinationCooldown;
      }
    }

    /** Walking to the queue point; on arrival, snaps onto it and waits.
        `nav` is the navigator's report the repath decision reads and
        `navAfter` the one the arrival check reads, after any new
        destination has been issued. */
    method TickMoveToQueue(now: real, nav: NavReport, navAfter: NavReport)
      modifies this
      ensures queuePoint == old(queuePoint) && employeeInteractPoint == old(employeeInteractPoint)
      ensures exitPoint == old(exitPoint)
      ensures queuePoint.None? ==> unchanged(this)
      ensures queuePoint.Some? ==>
                nextRepathTime == (if now >= old(nextRepathTime)
                                   then now + tuning.setDestinationCooldown else old(nextRepathTime))
      ensures queuePoint.Some? && CustomerArrived(old(position), queuePoint.value, navAfter, tuning.arriveSnapDistance) ==>
                state == Waiting && position == queuePoint.value && stopped && destination.None?
      ensures queuePoint.Some? && !CustomerArrived(old(position), queuePoint.value, navAfter, tuning.arriveSnapDistance) ==>
                state == old(state) && position == old(position) && !stopped
                && destination == (if now >= old(nextRepathTime) && !nav.hasPath
                                   then queuePoint else old(destination))
    {
      if queuePoint.None? {
        return;
      }
      stopped := false;
      Repath(now, nav, queuePoint.value);
      if CustomerArrived(position, queuePoint.value, navAfter, tuning.arriveSnapDistance) {
        EnterWaitingSnapToPoint();
      }
    }

    /** Stops, drops the path and stands exactly on the queue point. */
    method EnterWaitingSnapToPoint()
      requires queuePoint.Some?
      modifies this
      ensures queuePoint == old(queuePoint) && employeeInteractPoint == old(employeeInteractPoint)
      ensures exitPoint == old(exitPoint) && nextRepathTime == old(nextRepathTime)
      ensures state == Waiting && stopped && destination.None?
      ensures position == queuePoint.value
    {
      state := Waiting;
      stopped := true;
      destination := None;
      position := queuePoint.value;
    }

    /** Waiting: a drift beyond `keepSnapDistance` is undone by snapping
        back onto the queue point. */
    method TickWaiting()
      modifies this
      ensures queuePoint == old(queuePoint) && employeeInteractPoint == old(employeeInteractPoint)
      ensures exitPoint == old(exitPoint) && state == old(state)
      ensures nextRepathTime == old(nextRepathTime) && destination == old(destination)
      ensures stopped == old(stopped)
      ensures position == (if queuePoint.Some? && DistExceeds(old(position), queuePoint.value, tuning.keepSnapDistance)
                           then queuePoint.value else old(position))
      ensures queuePoint.Some? && tuning.keepSnapDistance >= 0.0 ==>
                DistWithin(position, queuePoint.value, tuning.keepSnapDistance)
    {
      if queuePoint.Some? {
        if DistExceeds(position, queuePoint.value, tuning.keepSnapDistance) {
          position := queuePoint.value;
          if tuning.keepSnapDistance >= 0.0 {
            NoDriftAtPoint(position, tuning.keepSnapDistance);
          }
        }
      }
    }

    /** Walking to the exit; on arrival the customer reports that it has
        left (the exit callback). `nav` and `navAfter` are read as in
        `TickMoveToQueue`. */
    method TickLeaving(now: real, nav: NavReport, navAfter: NavReport) returns (exited: bool)
      modifies this
      ensures queuePoint == old(queuePoint) && employeeInteractPoint == old(employeeInteractPoint)
      ensures exitPoint == old(exitPoint) && state == old(state) && position == old(position)
      ensures exitPoint.None? ==> unchanged(this) && !exited
      ensures exitPoint.Some? ==>
                !stopped
                && nextRepathTime == (if now >= old(nextRepathTime)
                                      then now + tuning.setDestinationCooldown else old(nextRepathTime))
                && destination == (if now >= old(nextRepathTime) && !nav.hasPath
                                   then exitPoint else old(destination))
                && (exited <==> CustomerArrived(position, exitPoint.value, navAfter, tuning.arriveSnapDistance))
    {
      exited := false;
      if exitPoint.None? {
        return;
      }
      stopped := false;
      Repath(now, nav, exitPoint.value);
      if CustomerArrived(position, exitPoint.value, navAfter, tuning.arriveSnapDistance) {
        exited := true;
      }
    }

    /**
     * One tick of the customer. `exited` is the exit callback: it is raised
     * only by a leaving customer that has arrived at the exit, and the
     * caller then releases the customer's slot. `nav` and `navAfter` are
     * the navigator's reports before and after a repath.
     */
    method Update(now: real, nav: NavReport, navAfter: NavReport) returns (exited: bool)
      modifies this
      ensures queuePoint == old(queuePoint) && employeeInteractPoint == old(employeeInteractPoint)
      ensures exitPoint == old(exitPoint)
      ensures exited ==> old(state) == Leaving && state == Leaving && exitPoint.Some?
                         && CustomerArrived(position, exitPoint.value, navAfter, tuning.arriveSnapDistance)
      ensures old(state) == Leaving && exitPoint.Some? ==>
                (exited <==> CustomerArrived(position, exitPoint.value, navAfter, tuning.arriveSnapDistance))
      ensures state == Waiting ==> old(state) == Waiting
                                   || (old(state) == MoveToQueue && queuePoint.Some? && position == queuePoint.value
                                       && CustomerArrived(old(position), queuePoint.value, navAfter, tuning.arriveSnapDistance))
      ensures old(state) == Waiting ==> state == Waiting
      ensures old(state) == Leaving ==> state == Leaving
      ensures old(state) == Waiting && queuePoint.Some? && tuning.keepSnapDistance >= 0.0 ==>
                DistWithin(position, queuePoint.value, tuning.keepSnapDistance)
      ensures (old(state) == MoveToQueue && queuePoint.None?) || (old(state) == Leaving && exitPoint.None?) ==>
                unchanged(this)
      ensures old(state) == MoveToQueue ==> state == MoveToQueue || state == Waiting
      ensures old(state) == MoveToQueue && queuePoint.Some? ==>
                nextRepathTime == (if now >= old(nextRepathTime)
                                   then now + tuning.setDestinationCooldown else old(nextRepathTime))
      ensures old(state) == MoveToQueue && queuePoint.Some?
              && CustomerArrived(old(position), queuePoint.value, navAfter, tuning.arriveSnapDistance) ==>
                state == Waiting && position == queuePoint.value && stopped && destination.None?
      ensures old(state) == MoveToQueue && queuePoint.Some?
              && !CustomerArrived(old(position), queuePoint.value, navAfter, tuning.arriveSnapDistance) ==>
                state == MoveToQueue && position == old(position) && !stopped
                && destination == (if now >= old(nextRepathTime) && !nav.hasPath
                                   then queuePoint else old(destination))
      ensures old(state) == Leaving && exitPoint.Some? ==>
                position == old(position) && !stopped
                && nextRepathTime == (if now >= old(nextRepathTime)
                                      then now + tuning.setDestinationCooldown else old(nextRepathTime))
                && destination == (if now >= old(nextRepathTime) && !nav.hasPath
                                   then exitPoint else old(destination))
    {
      exited := false;
      match state
      case MoveToQueue =>
        TickMoveToQueue(now, nav, navAfter);
      case Waiting =>
        TickWaiting();
      case Leaving =>
        exited := TickLeaving(now, nav, navAfter);
    }
  }
}

=== FILE: customer_request.dfy ===
/**
 * A customer's request: which product it wants and whether the thought
 * bubble showing it is visible. The product is held in both identifier
 * schemes; the mappings between them are total.
 */
module Requests {

  import opened Common
  import opened Products
  import opened Config

  /** A thought-bubble prefab for a product type; `prefab3D` is the
      prefab's identity, `None` when the entry has no prefab assigned. */
  datatype ThoughtPrefab = ThoughtPrefab(productType: ProductType, prefab3D: Option<nat>)

  /** ProductType to ProductId. Every type, known or not, maps to a water
      bottle: the default branch returns the same id as the `Water` branch. */
  function MapToProductId(t: ProductType): (id: ProductId)
    ensures t == Water ==> id == WaterBottle
    ensures id == WaterBottle
  {
    match t
    case Water => WaterBottle
    case _ => WaterBottle
  }

  /** ProductId to ProductType, total in the same way. */
  function MapToProductType(id: ProductId): (t: ProductType)
    ensures id == WaterBottle ==> t == Water
    ensures t == Water
  {
    match id
    case WaterBottle => Water
    case _ => Water
  }

  /** The two mappings are inverse on the one known product, and going
      through the type scheme sends every id to `WaterBottle`: any other id
      is lost by the round trip. */
  lemma MappingRoundTrip(id: ProductId, t: ProductType)
    ensures MapToProductId(MapToProductType(id)) == WaterBottle
    ensures MapToProductType(MapToProductId(t)) == Water
    ensures MapToProductId(MapToProductType(id)) == id <==> id == WaterBottle
  {
  }

  /** Index of the first entry for type `t`. */
  function FirstPrefabIndex(prefabs: seq<ThoughtPrefab>, t: ProductType): (k: Option<nat>)
    ensures k.Some? ==> k.value < |prefabs| && prefabs[k.value].productType == t
  {
    if prefabs == [] then None
    else if prefabs[0].productType == t then Some(0)
    else match FirstPrefabIndex(prefabs[1..], t)
      case None => None
      case Some(k) => Some(k + 1)
  }

  /** The first entry for `t` is found, every earlier entry is for another
      type, and nothing is found exactly when no entry is for `t`. */
  lemma {:induction false} FirstPrefabIndexIsFirst(prefabs: seq<ThoughtPrefab>, t: ProductType)
    ensures FirstPrefabIndex(prefabs, t).None?
            <==> forall j :: 0 <= j < |prefabs| ==> prefabs[j].productType != t
    ensures FirstPrefabIndex(prefabs, t).Some? ==>
            forall j :: 0 <= j < FirstPrefabIndex(prefabs, t).value ==> prefabs[j].productType != t
  {
    if prefabs != [] && prefabs[0].productType != t {
      FirstPrefabIndexIsFirst(prefabs[1..], t);
      assert forall j :: 1 <= j < |prefabs| ==> prefabs[1..][j - 1] == prefabs[j];
    }
  }

  class CustomerRequest3D {
    /** Whether the anchor the thought bubble is attached to is set. */
    const thoughtItemAnchor3D: bool
    const gameConfig: GameConfig?
    const thoughtPrefabs: seq<ThoughtPrefab>
    /** The request in the older scheme (property `RequestedProduct`). */
    var requestedType: ProductType
    /** The request in the newer scheme, the one the employee reads. */
    var requestedProduct: ProductId
    /** The shown thought bubble: the prefab it was made from, or none. */
    var currentThought: Option<nat>

    function IsRequestVisible(): (r: bool)
      reads this
      ensures r <==> currentThought.Some?
    {
      currentThought.Some?
    }

    /** A fresh component: no bubble, and the newer scheme's field holds its
        initial `WaterBottle`. */
    constructor (anchor: bool, config: GameConfig?, prefabs: seq<ThoughtPrefab>, initialType: ProductType)
      ensures thoughtItemAnchor3D == anchor && gameConfig == config && thoughtPrefabs == prefabs
      ensures requestedType == initialType && requestedProduct == WaterBottle
      ensures !IsRequestVisible()
    {
      thoughtItemAnchor3D := anchor;
      gameConfig := config;
      thoughtPrefabs := prefabs;
      requestedType := initialType;
      requestedProduct := WaterBottle;
      currentThought := None;
    }

    /** Removes the bubble, if any; nothing else changes. */
    method HideRequest()
      modifies this
      ensures !IsRequestVisible()
      ensures old(!IsRequestVisible()) ==> currentThought == old(currentThought)
      ensures requestedType == old(requestedType) && requestedProduct == old(requestedProduct)
    {
      if currentThought.Some? {
        currentThought := None;
      }
    }

    /**
     * The prefab of the first entry for `t`; none when no entry is for `t`
     * (and also when the first entry for `t` has no prefab, even if a later
     * one has).
     */
    method GetThoughtPrefab(t: ProductType) returns (prefab: Option<nat>)
      ensures prefab == (match FirstPrefabIndex(thoughtPrefabs, t)
                         case None => None
                         case Some(k) => thoughtPrefabs[k].prefab3D)
      ensures (forall j :: 0 <= j < |thoughtPrefabs| ==> thoughtPrefabs[j].productType != t) ==> prefab.None?
    {
      var i := 0;
      while i < |thoughtPrefabs|
        invariant 0 <= i <= |thoughtPrefabs|
        invariant forall j :: 0 <= j < i ==> thoughtPrefabs[j].productType != t
      {
        if thoughtPrefabs[i].productType == t {
          FirstPrefabIndexIsFirst(thoughtPrefabs, t);
          return thoughtPrefabs[i].prefab3D;
        }
        i := i + 1;
      }
      FirstPrefabIndexIsFirst(thoughtPrefabs, t);
      return None;
    }

    /**
     * Shows the request for type `t`: the old bubble goes first, both
     * product fields are set, and a new bubble appears only when a prefab
     * for `t` exists and the anchor is set.
     */
    method ShowRequestForType(t: ProductType)
      modifies this
      ensures requestedType == t && requestedProduct == MapToProductId(t)
      ensures requestedProduct == WaterBottle
      ensures currentThought == (if thoughtItemAnchor3D
                                 then match FirstPrefabIndex(thoughtPrefabs, t)
                                      case None => None
                                      case Some(k) => thoughtPrefabs[k].prefab3D
                                 else None)
    {
      HideRequest();
      requestedType := t;
      requestedProduct := MapToProductId(t);
      var prefab := GetThoughtPrefab(t);
      if prefab.None? || !thoughtItemAnchor3D {
        return;
      }
      currentThought := prefab;
    }

    /**
     * Shows the request for product id `id`, through the type scheme: the
     * id is written first and then overwritten by the round trip, so the
     * request always ends as `WaterBottle`.
     */
    method ShowRequestForId(id: ProductId)
      modifies this
      ensures requestedType == MapToProductType(id)
      ensures requestedProduct == MapToProductId(MapToProductType(id)) == WaterBottle
      ensures currentThought == (if thoughtItemAnchor3D
                                 then match FirstPrefabIndex(thoughtPrefabs, Water)
                                      case None => None
                                      case Some(k) => thoughtPrefabs[k].prefab3D
                                 else None)
    {
      requestedProduct := id;
      var t := MapToProductType(id);
      ShowRequestForType(t);
    }

    /**
     * Requests one of the unlocked types, chosen by the random draw (any
     * index of the list), and shows its bubble; `Water` when there is no
     * configuration or the list is empty.
     */
    method RandomizeRequestFromUnlocked()
      modifies this
      ensures gameConfig == null || gameConfig.unlockedProductTypes == [] ==> requestedType == Water
      ensures gameConfig != null && gameConfig.unlockedProductTypes != []
              ==> requestedType in gameConfig.unlockedProductTypes
      ensures requestedProduct == WaterBottle
      ensures currentThought == (if thoughtItemAnchor3D
                                 then match FirstPrefabIndex(thoughtPrefabs, requestedType)
                                      case None => None
                                      case Some(k) => thoughtPrefabs[k].prefab3D
                                 else None)
    {
      if gameConfig == null || |gameConfig.unlockedProductTypes| == 0 {
        ShowRequestForType(Water);
        return;
      }
      var unlocked := gameConfig.unlockedProductTypes;
      var index :| 0 <= index < |unlocked|;
      ShowRequestForType(unlocked[index]);
    }
  }
}

=== FILE: customer_spawner.dfy ===
/**
 * The slot allocator and dispatcher: a fixed array of queue slots, the
 * inverse map from customer to slot, the spawn timer, and the
 * "next waiting customer" query that sets the service order.
 */
module Spawning {

  import opened Common
  import opened Products
  import opened Requests
  import opened Customers

  /** What a spawned customer is made from: its tuning and, when the
      prefab carries one, its request component. */
  datatype CustomerPrefab = CustomerPrefab(tuning: CustomerTuning, request: Option<RequestPrefab>)

  datatype RequestPrefab = RequestPrefab(anchor: bool, thoughtPrefabs: seq<ThoughtPrefab>, initialType: ProductType)

  /** Number of occupied slots. */
  function Occupied(s: seq<CustomerFlow?>): (n: nat)
    ensures n <= |s|
  {
    if s == [] then 0 else Occupied(s[..|s| - 1]) + (if s[|s| - 1] != null then 1 else 0)
  }

  /** Every slot is occupied exactly when the count reaches the number of
      slots, and no slot is occupied exactly when the count is zero. */
  lemma {:induction false} OccupiedExtremes(s: seq<CustomerFlow?>)
    ensures Occupied(s) == |s| <==> forall i :: 0 <= i < |s| ==> s[i] != null
    ensures Occupied(s) == 0 <==> forall i :: 0 <= i < |s| ==> s[i] == null
  {
    if s != [] {
      var init := s[..|s| - 1];
      OccupiedExtremes(init);
      assert forall i :: 0 <= i < |init| ==> init[i] == s[i];
    }
  }

  /** Filling a free slot raises the count by one; freeing an occupied
      slot lowers it by one. */
  lemma {:induction false} OccupiedUpdate(s: seq<CustomerFlow?>, k: nat, c: CustomerFlow?)
    requires k < |s|
    ensures Occupied(s[k := c]) == Occupied(s) - (if s[k] != null then 1 else 0) + (if c != null then 1 else 0)
  {
    var n := |s| - 1;
    if k < n {
      assert s[k := c][..n] == s[..n][k := c];
      OccupiedUpdate(s[..n], k, c);
    } else {
      assert s[k := c][..n] == s[..n];
    }
  }

  /** The least free slot index, or -1 when every slot is occupied. */
  function FirstFree(s: seq<CustomerFlow?>): (k: int)
    ensures -1 <= k < |s|
    ensures k == -1 <==> forall i :: 0 <= i < |s| ==> s[i] != null
    ensures k >= 0 ==> s[k] == null && forall j :: 0 <= j < k ==> s[j] != null
  {
    if s == [] then -1
    else if s[0] == null then 0
    else
      var k := FirstFree(s[1..]);
      assert forall i :: 1 <= i < |s| ==> s[1..][i - 1] == s[i];
      if k == -1 then -1 else k + 1
  }

  /** An occupant the employee may be offered: present, not the excluded
      customer, and waiting at its slot. */
  predicate Servable(c: CustomerFlow?, exclude: CustomerFlow?)
    reads c
  {
    c != null && c != exclude && c.state == Waiting
  }

  /** Index of the first servable occupant, by ascending slot index. */
  function FirstWaiting(s: seq<CustomerFlow?>, exclude: CustomerFlow?): (k: Option<nat>)
    reads s
    ensures k.Some? ==> k.value < |s| && Servable(s[k.value], exclude)
  {
    if s == [] then None
    else if Servable(s[0], exclude) then Some(0)
    else match FirstWaiting(s[1..], exclude)
      case None => None
      case Some(k) => Some(k + 1)
  }

  /** Nothing is offered exactly when no occupant is servable, and every
      slot before the one offered holds no servable occupant. */
  lemma {:induction false} FirstWaitingIsFirst(s: seq<CustomerFlow?>, exclude: CustomerFlow?)
    ensures FirstWaiting(s, exclude).None? <==> forall j :: 0 <= j < |s| ==> !Servable(s[j], exclude)
    ensures FirstWaiting(s, exclude).Some? ==>
              forall j :: 0 <= j < FirstWaiting(s, exclude).value ==> !Servable(s[j], exclude)
  {
    if s != [] && !Servable(s[0], exclude) {
      FirstWaitingIsFirst(s[1..], exclude);
      assert forall j :: 1 <= j < |s| ==> s[1..][j - 1] == s[j];
    }
  }

  /** A servable slot preceded only by unservable ones is the one offered. */
  lemma FirstWaitingUnique(s: seq<CustomerFlow?>, exclude: CustomerFlow?, k: nat)
    requires k < |s| && Servable(s[k], exclude)
    requires forall j :: 0 <= j < k ==> !Servable(s[j], exclude)
    ensures FirstWaiting(s, exclude) == Some(k)
  {
    FirstWaitingIsFirst(s, exclude);
  }

  /** No customer stands in two slots. */
  ghost predicate Distinct(s: seq<CustomerFlow?>)
  {
    forall i, j :: 0 <= i < j < |s| && s[i] != null ==> s[i] != s[j]
  }

  /**
   * Service order: with no customer in two slots, asking again while
   * excluding the customer just offered yields the next servable slot
   * after it, by ascending index.
   */
  lemma NextInServiceOrder(s: seq<CustomerFlow?>, k: nat)
    requires Distinct(s)
    requires FirstWaiting(s, null) == Some(k)
    ensures var next := FirstWaiting(s, s[k]);
            && (next.None? <==> forall j :: k < j < |s| ==> !Servable(s[j], null))
            && (next.Some? ==> k < next.value
                               && forall j :: k < j < next.value ==> !Servable(s[j], null))
  {
    FirstWaitingIsFirst(s, null);
    FirstWaitingIsFirst(s, s[k]);
    var next := FirstWaiting(s, s[k]);
    if next.Some? {
      assert next.value != k;
      forall j | k < j < next.value ensures !Servable(s[j], null) {
        assert !Servable(s[j], s[k]);
        assert s[j] != s[k];
      }
    } else {
      forall j | k < j < |s| ensures !Servable(s[j], null) {
        assert !Servable(s[j], s[k]);
        assert s[j] != s[k];
      }
    }
  }

  /** The customers already in the scene that seeding places, in scan
      order: null entries and repeats are skipped. */
  ghost function Seeded(s: seq<CustomerFlow?>): seq<CustomerFlow>
  {
    if s == [] then []
    else
      var d := Seeded(s[..|s| - 1]);
      var c := s[|s| - 1];
      if c == null || c in d then d else d + [c]
  }

  /** One more entry either leaves the seeded list as it is or appends
      that entry, when it is a customer not yet seeded. */
  lemma SeededStep(s: seq<CustomerFlow?>, i: nat)
    requires i < |s|
    ensures Seeded(s[..i + 1]) == if s[i] == null || s[i] in Seeded(s[..i]) then Seeded(s[..i])
                                  else Seeded(s[..i]) + [s[i]]
  {
    assert s[..i + 1][..i] == s[..i];
  }

  /** Scanning further only appends to what was seeded. */
  lemma {:induction false} SeededPrefix(s: seq<CustomerFlow?>, i: nat)
    requires i <= |s|
    ensures |Seeded(s[..i])| <= |Seeded(s)|
    ensures Seeded(s[..i]) == Seeded(s)[..|Seeded(s[..i])|]
  {
    if i < |s| {
      var n := |s| - 1;
      assert s[..n][..i] == s[..i];
      SeededPrefix(s[..n], i);
      assert s[..n] == s[..|s| - 1];
    } else {
      assert s[..i] == s;
    }
  }

  /** Seeding never places a customer twice. */
  lemma {:induction false} SeededDistinct(s: seq<CustomerFlow?>)
    ensures forall i, j :: 0 <= i < j < |Seeded(s)| ==> Seeded(s)[i] != Seeded(s)[j]
  {
    if s != [] {
      SeededDistinct(s[..|s| - 1]);
    }
  }

  class CustomerSpawner {
    // Configuration, set in the scene.
    const customerPrefab: Option<CustomerPrefab>
    const spawnPoint: Option<Vec3>
    const exitPoint: Option<Vec3>
    const queuePoints: seq<Option<Vec3>>
    /** Meant to match `queuePoints` in length and order. */
    const employeeInteractPoints: seq<Option<Vec3>>
    const spawnInterval: real
    const maxCustomers: int

    /** `slots[i]` is the customer standing at slot `i`, or null. Null until
        `Start`, and stays null when there are no queue points. */
    var slots: array?<CustomerFlow?>
    /** The slot of each customer in a slot. */
    var slotOf: map<CustomerFlow, int>
    var nextSpawnTime: real

    /** The array and the map describe the same binding: customer `c` is
        at slot `i` in one exactly when it is in the other. */
    ghost predicate Valid()
      reads this`slots, this`slotOf, slots
    {
      (slots == null ==> slotOf == map[])
      && (slots != null ==>
            && slots.Length == |queuePoints| > 0
            && (forall c :: c in slotOf ==> 0 <= slotOf[c] < slots.Length && slots[slotOf[c]] == c)
            && (forall i :: 0 <= i < slots.Length && slots[i] != null ==> slots[i] in slotOf && slotOf[slots[i]] == i))
    }

    /** With the array and the map in agreement, no customer stands in two
        slots. */
    lemma NoCustomerTwice()
      requires Valid() && slots != null
      ensures Distinct(slots[..])
    {
    }

    /** The occupancy cap `min(maxCustomers, slot count)`. */
    function HardMax(): (h: int)
      reads this
      requires slots != null
      ensures h <= maxCustomers && h <= slots.Length
      ensures h == maxCustomers || h == slots.Length
    {
      MinInt(maxCustomers, slots.Length)
    }

    /** Whether a tick at time `now` spawns a customer. */
    ghost predicate SpawnDue(now: real)
      reads this, slots
    {
      && customerPrefab.Some? && spawnPoint.Some? && exitPoint.Some?
      && slots != null && slots.Length > 0
      && HardMax() > 0
      && Occupied(slots[..]) < HardMax()
      && now >= nextSpawnTime
    }

    constructor (prefab: Option<CustomerPrefab>, spawn: Option<Vec3>, exit: Option<Vec3>,
                 queue: seq<Option<Vec3>>, interact: seq<Option<Vec3>>, interval: real, maxCount: int)
      ensures customerPrefab == prefab && spawnPoint == spawn && exitPoint == exit
      ensures queuePoints == queue && employeeInteractPoints == interact
      ensures spawnInterval == interval && maxCustomers == maxCount
      ensures slots == null && slotOf == map[] && nextSpawnTime == 0.0
      ensures Valid()
    {
      customerPrefab, spawnPoint, exitPoint := prefab, spawn, exit;
      queuePoints, employeeInteractPoints := queue, interact;
      spawnInterval, maxCustomers := interval, maxCount;
      slots := null;
      slotOf := map[];
      nextSpawnTime := 0.0;
    }

    /** The slot's interact point, when the list is long enough. */
    function InteractPointFor(slot: nat): (ip: Option<Vec3>)
      ensures slot < |employeeInteractPoints| ==> ip == employeeInteractPoints[slot]
      ensures slot >= |employeeInteractPoints| ==> ip.None?
    {
      if |employeeInteractPoints| > slot then employeeInteractPoints[slot] else None
    }

    /** Number of occupied slots, counted one slot at a time. */
    method CountOccupied() returns (n: int)
      requires slots != null
      ensures n == Occupied(slots[..])
      ensures 0 <= n <= slots.Length
      ensures n == slots.Length <==> forall i :: 0 <= i < slots.Length ==> slots[i] != null
    {
      n := 0;
      for i := 0 to slots.Length
        invariant n == Occupied(slots[..i])
      {
        assert slots[..i + 1][..i] == slots[..i];
        if slots[i] != null {
          n := n + 1;
        }
      }
      assert slots[..slots.Length] == slots[..];
      OccupiedExtremes(slots[..]);
    }

    /** The least free slot index; -1 exactly when there are no slots or
        every slot is occupied. */
    method GetFirstFreeSlotIndex() returns (r: int)
      ensures slots == null ==> r == -1
      ensures slots != null ==> r == FirstFree(slots[..])
      ensures r == -1 <==> slots == null || forall i :: 0 <= i < slots.Length ==> slots[i] != null
      ensures r >= 0 ==> slots != null && r < slots.Length && slots[r] == null
                         && forall j :: 0 <= j < r ==> slots[j] != null
    {
      if slots == null {
        return -1;
      }
      for i := 0 to slots.Length
        invariant forall j :: 0 <= j < i ==> slots[j] != null
      {
        if slots[i] == null {
          assert FirstFree(slots[..]) == i;
          return i;
        }
      }
      return -1;
    }

    /**
     * Binds `c` to the free slot `slot`: both the array and the map record
     * it, and the customer receives the slot's queue point, its interact
     * point (none when the list is too short) and the exit point.
     */
    method AssignCustomerToSlot(c: CustomerFlow, slot: nat, forceMove: bool, now: real)
      requires Valid() && slots != null
      requires slot < slots.Length && slots[slot] == null && c !in slotOf
      modifies this, slots, c
      ensures Valid() && slots == old(slots) && nextSpawnTime == old(nextSpawnTime)
      ensures slots[..] == old(slots[..])[slot := c]
      ensures slotOf == old(slotOf)[c := slot]
      ensures c.queuePoint == queuePoints[slot]
      ensures c.employeeInteractPoint == InteractPointFor(slot)
      ensures c.exitPoint == exitPoint
      ensures c.position == old(c.position)
      ensures forceMove && c.queuePoint.Some? ==>
                c.state == MoveToQueue && !c.stopped && c.destination == c.queuePoint
                && c.nextRepathTime == now + c.tuning.setDestinationCooldown
      ensures !forceMove || c.queuePoint.None? ==>
                c.state == old(c.state) && c.destination == old(c.destination)
                && c.stopped == old(c.stopped) && c.nextRepathTime == old(c.nextRepathTime)
    {
      slots[slot] := c;
      slotOf := slotOf[c := slot];
      var q := queuePoints[slot];
      var interact := if |employeeInteractPoints| > slot then employeeInteractPoints[slot] else None;
      c.SetSlot(q, interact, exitPoint, forceMove, now);
    }

    /** `c` carries the anchors of slot `k` and, when the slot has a queue
        point, was sent there by a forced move at time `now`. */
    ghost predicate SeatedWithAnchors(c: CustomerFlow, k: nat, now: real)
      reads c
    {
      && k < |queuePoints|
      && c.queuePoint == queuePoints[k]
      && c.employeeInteractPoint == InteractPointFor(k)
      && c.exitPoint == exitPoint
      && (c.queuePoint.Some? ==>
            c.state == MoveToQueue && c.destination == c.queuePoint
            && c.nextRepathTime == now + c.tuning.setDestinationCooldown)
    }

    /** Every customer in a slot of `s` carries that slot's anchors. */
    ghost predicate AllSeatedWithAnchors(s: seq<CustomerFlow?>, now: real)
      reads s
    {
      forall k :: 0 <= k < |s| && s[k] != null ==> SeatedWithAnchors(s[k], k, now)
    }

    /** The slots hold exactly the customers of `d`, from slot 0 on, and
        agree with the map. */
    ghost predicate SeatedAs(d: seq<CustomerFlow>)
      reads this`slots, this`slotOf, slots
    {
      Valid() && slots != null && |d| <= slots.Length && slots[..] == Pad(d, slots.Length)
    }

    /** Seeding at start: with at least one queue point, the slots are
        allocated and filled from the customers already in the scene, in
        scan order, until the slots run out; the spawn deadline is then one
        interval away. */
    method Start(existing: seq<CustomerFlow?>, now: real)
      requires slots == null && slotOf == map[]
      modifies this, existing
      ensures Valid()
      ensures |queuePoints| == 0 ==> slots == null && nextSpawnTime == old(nextSpawnTime)
      ensures |queuePoints| > 0 ==>
                && slots != null && fresh(slots)
                && nextSpawnTime == now + spawnInterval
                && (forall k :: 0 <= k < slots.Length ==>
                      slots[k] == if k < |Seeded(existing)| then Seeded(existing)[k] else null)
                && Occupied(slots[..]) == MinInt(|Seeded(existing)|, slots.Length)
                && AllSeatedWithAnchors(slots[..], now)
    {
      var slotCount := |queuePoints|;
      if slotCount > 0 {
        slots := new CustomerFlow?[slotCount](_ => null);
        assert slots[..] == Pad([], slotCount);
        SeedExisting(existing, now);
        nextSpawnTime := now + spawnInterval;
      }
    }

    /** The seeding scan of `Start`: the customers of the scene, in scan
        order and without repeats, fill the slots from index 0 until the
        list or the slots run out. */
    method SeedExisting(existing: seq<CustomerFlow?>, now: real)
      requires SeatedAs([])
      modifies this, slots, existing
      ensures slots == old(slots) && nextSpawnTime == old(nextSpawnTime)
      ensures SeatedAs(Seeded(existing)[..MinInt(|Seeded(existing)|, slots.Length)])
      ensures Occupied(slots[..]) == MinInt(|Seeded(existing)|, slots.Length)
      ensures AllSeatedWithAnchors(slots[..], now)
    {
      var i := 0;
      var full := false;
      while i < |existing| && !full
        invariant 0 <= i <= |existing|
        invariant slots == old(slots) && nextSpawnTime == old(nextSpawnTime)
        invariant SeatedAs(Seeded(existing[..i]))
        invariant full ==> |Seeded(existing[..i])| == slots.Length
        invariant AllSeatedWithAnchors(slots[..], now)
        decreases |existing| - i, if full then 0 else 1
      {
        SeededStep(existing, i);
        full := SeatExisting(existing[i], Seeded(existing[..i]), now);
        if !full {
          i := i + 1;
        }
      }
      SeededComplete(existing, i, slots[..]);
    }

    /**
     * One step of the seeding scan: a null entry or a customer already
     * placed is skipped; otherwise the customer goes to the least free
     * slot with a forced move, or, when no slot is free, the scan stops.
     */
    method SeatExisting(c: CustomerFlow?, ghost d: seq<CustomerFlow>, now: real) returns (full: bool)
      requires SeatedAs(d) && AllSeatedWithAnchors(slots[..], now)
      modifies this, slots, c
      ensures slots == old(slots) && nextSpawnTime == old(nextSpawnTime)
      ensures full <==> c != null && c !in d && |d| == slots.Length
      ensures full ==> SeatedAs(d)
      ensures !full ==> SeatedAs(if c == null || c in d then d else d + [c])
      ensures !full && c != null && c !in d ==> SeatedWithAnchors(c, |d|, now)
      ensures c != null && (full || c in d) ==> unchanged(c)
      ensures AllSeatedWithAnchors(slots[..], now)
    {
      if c == null {
        return false;
      }
      if c in slotOf {
        PadHolds(d, slots.Length, slotOf[c]);
        return false;
      }
      assert |d| < slots.Length ==> slots[|d|] == null;
      var free := GetFirstFreeSlotIndex();
      if free == -1 {
        return true;
      }
      assert free == |d|;
      AssignCustomerToSlot(c, free, true, now);
      PadAppend(d, c, slots.Length);
      return false;
    }

    /** Spawns a fresh customer at the spawn point into the least free
        slot; nothing when every slot is taken. */
    method TrySpawnIntoFreeSlot(now: real) returns (spawned: CustomerFlow?)
      requires Valid() && slots != null && customerPrefab.Some? && spawnPoint.Some?
      modifies this, slots
      ensures Valid() && slots == old(slots) && nextSpawnTime == old(nextSpawnTime)
      ensures FirstFree(old(slots[..])) == -1 ==> spawned == null && slots[..] == old(slots[..]) && slotOf == old(slotOf)
      ensures FirstFree(old(slots[..])) >= 0 ==>
                && spawned != null && fresh(spawned)
                && slots[..] == old(slots[..])[FirstFree(old(slots[..])) := spawned]
                && spawned.queuePoint == queuePoints[FirstFree(old(slots[..]))]
                && spawned.employeeInteractPoint == InteractPointFor(FirstFree(old(slots[..])))
                && spawned.exitPoint == exitPoint
                && spawned.position == spawnPoint.value
                && (spawned.queuePoint.Some? ==> spawned.state == MoveToQueue)
                && (spawned.queuePoint.Some? ==> !spawned.stopped)
                && SeatedWithAnchors(spawned, FirstFree(old(slots[..])), now)
    {
      var slot := GetFirstFreeSlotIndex();
      if slot == -1 {
        return null;
      }
      var prefab := customerPrefab.value;
      var request: CustomerRequest3D? := null;
      if prefab.request.Some? {
        var r := prefab.request.value;
        request := new CustomerRequest3D(r.anchor, null, r.thoughtPrefabs, r.initialType);
      }
      var c := new CustomerFlow.Instantiate(prefab.tuning, request, spawnPoint.value);
      AssignCustomerToSlot(c, slot, true, now);
      spawned := c;
    }

    /**
     * One tick of the spawner. A customer is spawned, and the deadline
     * moved to `now + spawnInterval`, only when the configuration is
     * complete, occupancy is below the cap and the deadline has passed;
     * at the cap the deadline is left as it is.
     */
    method Update(now: real) returns (spawned: CustomerFlow?)
      requires Valid()
      modifies this, slots
      ensures Valid() && slots == old(slots)
      ensures old(SpawnDue(now)) ==>
                && nextSpawnTime == now + spawnInterval
                && spawned != null && fresh(spawned)
                && FirstFree(old(slots[..])) >= 0
                && slots[..] == old(slots[..])[FirstFree(old(slots[..])) := spawned]
                && Occupied(slots[..]) == old(Occupied(slots[..])) + 1
                && spawned.queuePoint == queuePoints[FirstFree(old(slots[..]))]
                && spawned.exitPoint == exitPoint
      ensures !old(SpawnDue(now)) ==>
                && spawned == null && nextSpawnTime == old(nextSpawnTime)
                && slotOf == old(slotOf)
                && (slots != null ==> slots[..] == old(slots[..]))
      ensures slots != null && old(Occupied(slots[..])) <= HardMax() ==> Occupied(slots[..]) <= HardMax()
      ensures slots != null && HardMax() <= 0 ==> spawned == null
    {
      spawned := null;
      if customerPrefab.Some? && spawnPoint.Some? && exitPoint.Some? && slots != null && slots.Length != 0 {
        var slotLimit := slots.Length;
        var hardMax := MinInt(maxCustomers, slotLimit);
        if hardMax > 0 {
          var count := CountOccupied();
          if count < hardMax && now >= nextSpawnTime {
            ghost var before := slots[..];
            OccupiedExtremes(before);
            spawned := TrySpawnIntoFreeSlot(now);
            OccupiedUpdate(before, FirstFree(before), spawned);
            nextSpawnTime := now + spawnInterval;
          }
        }
      }
    }

    /**
     * The exit callback: clears the slot recorded for `c` if that slot
     * still holds it, and forgets `c`. No other slot moves, and a second
     * call for the same customer changes nothing.
     */
    method HandleCustomerExited(c: CustomerFlow?)
      requires Valid()
      modifies this, slots
      ensures Valid() && slots == old(slots) && nextSpawnTime == old(nextSpawnTime)
      ensures c != null ==> c !in slotOf
      ensures c == null || c !in old(slotOf) ==>
                slotOf == old(slotOf) && (slots != null ==> slots[..] == old(slots[..]))
      ensures c != null && c in old(slotOf) ==>
                && slots != null
                && slots[..] == old(slots[..])[old(slotOf[c]) := null]
                && slotOf == old(slotOf) - {c}
                && Occupied(slots[..]) == old(Occupied(slots[..])) - 1
    {
      if c == null {
        return;
      }
      if c in slotOf {
        var slot := slotOf[c];
        ghost var before := slots[..];
        if 0 <= slot < slots.Length && slots[slot] == c {
          slots[slot] := null;
          OccupiedUpdate(before, slot, null);
        }
        slotOf := slotOf - {c};
      }
    }

    /**
     * The first occupant, by ascending slot index, that is waiting and is
     * not `exclude`; null when there is none or there are no slots.
     */
    method GetNextWaitingCustomer(exclude: CustomerFlow?) returns (r: CustomerFlow?)
      ensures slots == null ==> r == null
      ensures slots != null ==> r == (match FirstWaiting(slots[..], exclude)
                                      case None => null
                                      case Some(k) => slots[k])
      ensures r != null ==> r.state == Waiting && r != exclude
      ensures r == null <==> slots == null || forall j :: 0 <= j < slots.Length ==> !Servable(slots[j], exclude)
    {
      if slots == null || slots.Length == 0 {
        return null;
      }
      FirstWaitingIsFirst(slots[..], exclude);
      for i := 0 to slots.Length
        invariant forall j :: 0 <= j < i ==> !Servable(slots[j], exclude)
      {
        var c := slots[i];
        if c == null {
          continue;
        }
        if c == exclude {
          continue;
        }
        if c.ArrivedQueue() {
          FirstWaitingUnique(slots[..], exclude, i);
          return c;
        }
      }
      return null;
    }

    /** The customer at the lowest slot index that has arrived at its slot:
        the same answer as `GetNextWaitingCustomer(null)`. */
    method FrontCustomer() returns (r: CustomerFlow?)
      ensures slots == null ==> r == null
      ensures slots != null ==> r == (match FirstWaiting(slots[..], null)
                                      case None => null
                                      case Some(k) => slots[k])
    {
      if slots == null {
        return null;
      }
      FirstWaitingIsFirst(slots[..], null);
      for i := 0 to slots.Length
        invariant forall j :: 0 <= j < i ==> !Servable(slots[j], null)
      {
        var c := slots[i];
        if c != null && c.ArrivedQueue() {
          FirstWaitingUnique(slots[..], null, i);
          return c;
        }
      }
      return null;
    }
  }

  /** The first entries of `d`, then null up to length `n`. */
  function Pad(d: seq<CustomerFlow>, n: nat): (s: seq<CustomerFlow?>)
    requires |d| <= n
    ensures |s| == n
    ensures forall k :: 0 <= k < n ==> s[k] == if k < |d| then d[k] else null
  {
    d + seq(n - |d|, _ => null)
  }

  /** A customer in a padded list is one of the listed ones. */
  lemma PadHolds(d: seq<CustomerFlow>, n: nat, k: nat)
    requires |d| <= n && k < n && Pad(d, n)[k] != null
    ensures Pad(d, n)[k] in d
  {
  }

  lemma PadAppend(d: seq<CustomerFlow>, c: CustomerFlow, n: nat)
    requires |d| < n
    ensures Pad(d + [c], n) == Pad(d, n)[|d| := c]
  {
  }

  /** When the scan stops, because the list is exhausted or the slots are
      full, the slots hold the seeded list cut to the slot count. */
  lemma SeededComplete(existing: seq<CustomerFlow?>, i: nat, s: seq<CustomerFlow?>)
    requires i <= |existing|
    requires |Seeded(existing[..i])| == |s| || i == |existing|
    requires |Seeded(existing[..i])| <= |s|
    requires s == Pad(Seeded(existing[..i]), |s|)
    ensures Seeded(existing[..i]) == Seeded(existing)[..MinInt(|Seeded(existing)|, |s|)]
    ensures Occupied(s) == MinInt(|Seeded(existing)|, |s|)
  {
    SeededPrefix(existing, i);
    if i == |existing| {
      assert existing[..i] == existing;
    }
    SeededOccupied(s, Seeded(existing));
  }

  /** Slots filled with the first entries of a list of customers hold as
      many customers as fit. */
  lemma {:induction false} SeededOccupied(s: seq<CustomerFlow?>, d: seq<CustomerFlow>)
    requires forall k :: 0 <= k < |s| ==> s[k] == if k < |d| then d[k] else null
    ensures Occupied(s) == MinInt(|d|, |s|)
  {
    if s != [] {
      var n := |s| - 1;
      SeededOccupied(s[..n], d);
    }
  }
}

=== FILE: employee_flow.dfy ===
/**
 * The employee state machine: pick a waiting customer, walk to its
 * interact point, show its request, fetch the product from the nearest
 * station, gather it, bring it back, deliver, get paid, and either take
 * the next waiting customer or go home.
 */
module Employees {

  import opened Common
  import opened Products
  import opened Requests
  import opened Customers
  import opened Shop
  import opened Economy
  import opened Spawning

  datatype EmployeeState =
    | IdleAtHome
    | GoToInteract
    | ActivateRequest
    | GoToStation
    | Gathering
    | ReturnToCustomer
    | Deliver

  /** How close to a point counts as being there when idling. */
  const NearDistance: real := 0.3

  /** Slack added to the navigator's stopping distance when deciding
      arrival. */
  const ArrivalSlack: real := 0.05

  /** The shortest gathering, whatever the station says. */
  const MinGatherTime: real := 0.1

  /** Arrival as the employee decides it: a computed path whose remaining
      distance is within the stopping distance plus a small slack. No
      straight-line fallback. */
  function EmployeeArrived(nav: NavReport): (r: bool)
    ensures r ==> !nav.pathPending && nav.hasPath
    ensures !nav.pathPending && nav.hasPath ==> (r <==> nav.remainingDistance <= nav.stoppingDistance + 0.05)
  {
    !nav.pathPending && nav.hasPath && nav.remainingDistance <= nav.stoppingDistance + ArrivalSlack
  }

  /** How long gathering at a station takes. */
  function GatherDuration(gatherTime: real): (d: real)
    ensures d >= MinGatherTime && d >= gatherTime
    ensures d == MinGatherTime || d == gatherTime
  {
    Max(MinGatherTime, gatherTime)
  }

  /** What a delivery earns: the station's price, never negative, and
      nothing when there is no station. */
  function Credit(station: Option<Station>): (c: int32)
    ensures c >= 0
    ensures station.None? ==> c == 0
    ensures station.Some? && station.value.price >= 0 ==> c == station.value.price
    ensures station.Some? && station.value.price < 0 ==> c == 0
  {
    match station
    case None => 0
    case Some(s) => if s.price >= 0 then s.price else 0
  }

  /** A station the employee can walk to. */
  predicate StationReady(station: Option<Station>)
  {
    station.Some? && station.value.stationPoint.Some?
  }

  /** Total of a run of frame times. */
  function Elapsed(ds: seq<real>): (t: real)
    ensures ds == [] ==> t == 0.0
    ensures |ds| == 1 ==> t == ds[0]
  {
    if ds == [] then 0.0 else Elapsed(ds[..|ds| - 1]) + ds[|ds| - 1]
  }

  /** Frame times are never negative, and neither is their total. */
  lemma {:induction false} ElapsedNonNegative(ds: seq<real>)
    requires forall i :: 0 <= i < |ds| ==> ds[i] >= 0.0
    ensures Elapsed(ds) >= 0.0
  {
    if ds != [] {
      ElapsedNonNegative(ds[..|ds| - 1]);
    }
  }

  /** Index of the frame on which gathering for `dur` seconds completes,
      when it does within `ds`: the first frame whose running total
      reaches `dur`. */
  function CompletionFrame(ds: seq<real>, dur: real): (k: Option<nat>)
    ensures k.Some? ==> k.value < |ds|
  {
    if ds == [] then None
    else match CompletionFrame(ds[..|ds| - 1], dur)
      case Some(k) => Some(k)
      case None => if Elapsed(ds) >= dur then Some(|ds| - 1) else None
  }

  /** With non-negative frame times the running total never decreases. */
  lemma {:induction false} ElapsedMonotone(ds: seq<real>, i: nat, j: nat)
    requires i <= j <= |ds|
    requires forall k :: 0 <= k < |ds| ==> ds[k] >= 0.0
    ensures Elapsed(ds[..i]) <= Elapsed(ds[..j])
  {
    if i < j {
      assert ds[..j][..j - 1] == ds[..j - 1];
      ElapsedMonotone(ds, i, j - 1);
    }
  }

  /**
   * Gathering completes on frame `k` exactly when the running total first
   * reaches the duration there: the total through frame `k` is at least
   * `dur` and the total before it is below.
   */
  lemma {:induction false} CompletionFrameIsFirst(ds: seq<real>, dur: real, k: nat)
    requires k < |ds|
    requires forall i :: 0 <= i < |ds| ==> ds[i] >= 0.0
    requires dur > 0.0
    ensures CompletionFrame(ds, dur) == Some(k)
            <==> Elapsed(ds[..k + 1]) >= dur && Elapsed(ds[..k]) < dur
  {
    var n := |ds| - 1;
    var init := ds[..n];
    assert ds[..n + 1] == ds;
    if k < n {
      assert init[..k + 1] == ds[..k + 1] && init[..k] == ds[..k];
      CompletionFrameIsFirst(init, dur, k);
      if CompletionFrame(init, dur).None? {
        CompletionFrameNone(init, dur);
        assert init[..n] == init;
        ElapsedMonotone(init, k + 1, n);
      }
    } else {
      CompletionFrameIsLast(ds, dur);
    }
  }

  /** The case of `CompletionFrameIsFirst` for the last frame: gathering
      completes there exactly when the total first reaches `dur` there. */
  lemma {:induction false} CompletionFrameIsLast(ds: seq<real>, dur: real)
    requires ds != []
    requires forall i :: 0 <= i < |ds| ==> ds[i] >= 0.0
    requires dur > 0.0
    ensures var n := |ds| - 1;
            CompletionFrame(ds, dur) == Some(n) <==> Elapsed(ds) >= dur && Elapsed(ds[..n]) < dur
  {
    var n := |ds| - 1;
    var init := ds[..n];
    assert forall i :: 0 <= i < |init| ==> init[i] >= 0.0;
    CompletionFrameNone(init, dur);
    if n > 0 && CompletionFrame(init, dur).Some? {
      var m := CompletionFrame(init, dur).value;
      CompletionFrameReached(init, dur);
      assert init[..m + 1] == ds[..m + 1];
      ElapsedMonotone(ds, m + 1, n);
      assert ds[..n] == init;
    }
  }

  /** Nothing completes exactly when the total never reaches `dur`; with
      non-negative times that is the total of the whole run. */
  lemma {:induction false} CompletionFrameNone(ds: seq<real>, dur: real)
    requires forall i :: 0 <= i < |ds| ==> ds[i] >= 0.0
    requires dur > 0.0
    ensures CompletionFrame(ds, dur).None? <==> Elapsed(ds) < dur
  {
    if ds != [] {
      var n := |ds| - 1;
      var init := ds[..n];
      CompletionFrameNone(init, dur);
      ElapsedMonotone(ds, n, |ds|);
      assert ds[..|ds|] == ds && ds[..n] == init;
    }
  }

  /** The frame found has reached the duration. */
  lemma {:induction false} CompletionFrameReached(ds: seq<real>, dur: real)
    requires CompletionFrame(ds, dur).Some?
    ensures Elapsed(ds[..CompletionFrame(ds, dur).value + 1]) >= dur
  {
    var n := |ds| - 1;
    var init := ds[..n];
    if CompletionFrame(init, dur).Some? {
      CompletionFrameReached(init, dur);
      var m := CompletionFrame(init, dur).value;
      assert init[..m + 1] == ds[..m + 1];
    } else {
      assert ds[..n + 1] == ds;
    }
  }

  /** Gathering always ends: when every frame lasts at least `eps > 0`,
      enough frames to cover the duration complete it. */
  lemma {:induction false} GatheringEnds(ds: seq<real>, dur: real, eps: real)
    requires eps > 0.0 && dur > 0.0
    requires forall i :: 0 <= i < |ds| ==> ds[i] >= eps
    requires |ds| as real * eps >= dur
    ensures CompletionFrame(ds, dur).Some?
  {
    ElapsedAtLeast(ds, eps);
    CompletionFrameNone(ds, dur);
  }

  lemma {:induction false} ElapsedAtLeast(ds: seq<real>, eps: real)
    requires forall i :: 0 <= i < |ds| ==> ds[i] >= eps
    ensures Elapsed(ds) >= |ds| as real * eps
  {
    if ds != [] {
      var n := |ds| - 1;
      var init := ds[..n];
      ElapsedAtLeast(init, eps);
      assert Elapsed(ds) == Elapsed(init) + ds[n];
      assert |ds| as real * eps == n as real * eps + eps;
    }
  }

  class EmployeeFlow {
    /** The transform position; the navigator moves it between frames. */
    var position: Vec3
    /** Whether the agent is on the navigation mesh. */
    var onNavMesh: bool
    /** The navigator's destination; `None` after a path reset. */
    var destination: Option<Vec3>
    /** The navigator's `isStopped` flag. */
    var stopped: bool

    const idlePoint: Option<Vec3>
    var interactPoint: Option<Vec3>
    /** Whether the hand slot for carried items is set. */
    const carrySlot: bool
    /** Whether an item is held in the hand slot. */
    var carrying: bool

    var targetCustomerFlow: CustomerFlow?
    var targetCustomerRequest: CustomerRequest3D?

    var state: EmployeeState
    var currentStation: Option<Station>
    var gatherT: real

    /**
     * What every frame keeps: the request is the target customer's own;
     * only the idle state may be without a customer; walking states know
     * where they go; the states after the station has been found still have
     * it; an item is carried only on the way back and at delivery. The
     * delivering state has one degenerate form, with neither interact point
     * nor station (see `TickDeliver`).
     */
    ghost predicate Valid()
      reads this
    {
      && gatherT >= 0.0
      && targetCustomerRequest == (if targetCustomerFlow == null then null else targetCustomerFlow.request)
      && (state != IdleAtHome ==> targetCustomerFlow != null)
      && (state in {GoToInteract, ActivateRequest, GoToStation, Gathering, ReturnToCustomer} ==>
            interactPoint.Some?)
      && (state in {GoToStation, Gathering, ReturnToCustomer} ==> StationReady(currentStation))
      && (state == Deliver ==>
            (interactPoint.Some? && StationReady(currentStation))
            || (interactPoint.None? && currentStation.None? && !carrying))
      && (carrying ==>
            (state == ReturnToCustomer || state == Deliver)
            && carrySlot && currentStation.Some? && currentStation.value.carryItemPrefab)
    }

    /** An employee placed in the scene: idle, with no customer. */
    constructor (at: Vec3, onMesh: bool, idle: Option<Vec3>, slot: bool)
      ensures position == at && onNavMesh == onMesh && idlePoint == idle && carrySlot == slot
      ensures state == IdleAtHome && targetCustomerFlow == null && targetCustomerRequest == null
      ensures interactPoint.None? && currentStation.None? && !carrying && gatherT == 0.0
      ensures destination.None? && !stopped
      ensures Valid()
    {
      position := at;
      onNavMesh := onMesh;
      destination := None;
      stopped := false;
      idlePoint := idle;
      interactPoint := None;
      carrySlot := slot;
      carrying := false;
      targetCustomerFlow := null;
      targetCustomerRequest := null;
      state := IdleAtHome;
      currentStation := None;
      gatherT := 0.0;
    }

    /** The first frame: go home. */
    method Start()
      requires Valid() && state == IdleAtHome
      modifies this
      ensures Valid()
      ensures state == IdleAtHome
      ensures targetCustomerFlow == old(targetCustomerFlow) && interactPoint == old(interactPoint)
      ensures idlePoint.Some? && onNavMesh ==> destination == idlePoint && !stopped
    {
      GoIdle();
    }

    /** Makes sure the agent is on the mesh, warping it onto the nearest
        mesh point when the navigator finds one (`sampleHit`). */
    method EnsureOnNavMesh(sampleHit: bool) returns (ok: bool)
      requires Valid()
      modifies this`onNavMesh
      ensures Valid()
      ensures ok == (old(onNavMesh) || sampleHit) && onNavMesh == ok
      ensures !ok ==> unchanged(this)
      ensures state == old(state) && destination == old(destination) && stopped == old(stopped)
      ensures interactPoint == old(interactPoint) && currentStation == old(currentStation)
      ensures targetCustomerFlow == old(targetCustomerFlow) && targetCustomerRequest == old(targetCustomerRequest)
      ensures gatherT == old(gatherT) && carrying == old(carrying) && position == old(position)
    {
      if onNavMesh {
        return true;
      }
      if sampleHit {
        onNavMesh := true;
        return true;
      }
      return false;
    }

    /** Walks to `pos`, when on the mesh. */
    method StartMoveTo(pos: Vec3)
      modifies this
      ensures onNavMesh ==> !stopped && destination == Some(pos)
      ensures !onNavMesh ==> stopped == old(stopped) && destination == old(destination)
      ensures onNavMesh == old(onNavMesh) && state == old(state) && position == old(position)
      ensures interactPoint == old(interactPoint) && currentStation == old(currentStation)
      ensures targetCustomerFlow == old(targetCustomerFlow) && targetCustomerRequest == old(targetCustomerRequest)
      ensures gatherT == old(gatherT) && carrying == old(carrying)
    {
      if !onNavMesh {
        return;
      }
      stopped := false;
      destination := Some(pos);
    }

    /** Stops and drops the path, when on the mesh. */
    method StopMove()
      modifies this
      ensures onNavMesh ==> stopped && destination.None?
      ensures !onNavMesh ==> stopped == old(stopped) && destination == old(destination)
      ensures onNavMesh == old(onNavMesh) && state == old(state) && position == old(position)
      ensures interactPoint == old(interactPoint) && currentStation == old(currentStation)
      ensures targetCustomerFlow == old(targetCustomerFlow) && targetCustomerRequest == old(targetCustomerRequest)
      ensures gatherT == old(gatherT) && carrying == old(carrying)
    {
      if !onNavMesh {
        return;
      }
      stopped := true;
      destination := None;
    }

    /** Arrival, which also needs the agent on the mesh. */
    function HasArrived(nav: NavReport): (r: bool)
      reads this
      ensures !onNavMesh ==> !r
      ensures r ==> !nav.pathPending && nav.hasPath
      ensures onNavMesh ==> (r <==> EmployeeArrived(nav))
    {
      onNavMesh && EmployeeArrived(nav)
    }

    /** Within 0.3 of `p` in straight-line distance. */
    function IsNear(p: Vec3): (r: bool)
      reads this`position
      ensures r <==> SqDist(position, p) <= 0.09
      ensures p == position ==> r
    {
      DistWithin(position, p, NearDistance)
    }

    /** The last move order walks the agent to `p`. Orders take effect only
        on the mesh, so off it nothing is promised. */
    predicate HeadingTo(p: Option<Vec3>)
      reads this
    {
      onNavMesh ==> destination == p && !stopped
    }

    /** Takes `c` as the customer to serve, with its request component,
        and its slot's interact point when it has one. */
    method SetTargetCustomer(c: CustomerFlow?)
      modifies this
      ensures targetCustomerFlow == c
      ensures targetCustomerRequest == (if c == null then null else c.request)
      ensures interactPoint == (if c != null && c.employeeInteractPoint.Some?
                                then c.employeeInteractPoint else old(interactPoint))
      ensures state == old(state) && currentStation == old(currentStation) && gatherT == old(gatherT)
      ensures carrying == old(carrying) && destination == old(destination) && stopped == old(stopped)
      ensures onNavMesh == old(onNavMesh) && position == old(position)
    {
      targetCustomerFlow := c;
      targetCustomerRequest := if c != null then c.request else null;
      if c != null && c.employeeInteractPoint.Some? {
        interactPoint := c.employeeInteractPoint;
      }
    }

    /** Stays home: walks back when not near the idle point. */
    method KeepAtIdlePoint()
      modifies this
      ensures idlePoint.Some? && !old(IsNear(idlePoint.value)) && onNavMesh ==>
                destination == idlePoint && !stopped
      ensures idlePoint.None? || old(IsNear(idlePoint.value)) ==> unchanged(this)
      ensures state == old(state) && interactPoint == old(interactPoint) && currentStation == old(currentStation)
      ensures targetCustomerFlow == old(targetCustomerFlow) && targetCustomerRequest == old(targetCustomerRequest)
      ensures gatherT == old(gatherT) && carrying == old(carrying)
      ensures onNavMesh == old(onNavMesh) && position == old(position)
    {
      if idlePoint.None? {
        return;
      }
      if !IsNear(idlePoint.value) {
        StartMoveTo(idlePoint.value);
      }
    }

    /** Becomes idle and heads home when there is a home. The customer,
        the interact point and the station are kept. */
    method GoIdle()
      modifies this
      ensures state == IdleAtHome
      ensures idlePoint.Some? && onNavMesh ==> destination == idlePoint && !stopped
      ensures idlePoint.None? || !onNavMesh ==> destination == old(destination) && stopped == old(stopped)
      ensures interactPoint == old(interactPoint) && currentStation == old(currentStation)
      ensures targetCustomerFlow == old(targetCustomerFlow) && targetCustomerRequest == old(targetCustomerRequest)
      ensures gatherT == old(gatherT) && carrying == old(carrying)
      ensures onNavMesh == old(onNavMesh) && position == old(position)
    {
      state := IdleAtHome;
      if idlePoint.None? {
        return;
      }
      StartMoveTo(idlePoint.value);
    }

    /**
     * Walks to the interact point, taking it from the customer when none is
     * set; with no interact point at all, nothing but that lookup happens
     * and the state is kept.
     */
    method GoToInteractPoint()
      modifies this
      ensures interactPoint == (if old(interactPoint).None? && targetCustomerFlow != null
                                then targetCustomerFlow.employeeInteractPoint else old(interactPoint))
      ensures interactPoint.Some? ==>
                state == GoToInteract && (onNavMesh ==> destination == interactPoint && !stopped)
      ensures interactPoint.None? ==>
                state == old(state) && destination == old(destination) && stopped == old(stopped)
      ensures !onNavMesh ==> destination == old(destination) && stopped == old(stopped)
      ensures currentStation == old(currentStation)
      ensures targetCustomerFlow == old(targetCustomerFlow) && targetCustomerRequest == old(targetCustomerRequest)
      ensures gatherT == old(gatherT) && carrying == old(carrying)
      ensures onNavMesh == old(onNavMesh) && position == old(position)
    {
      if interactPoint.None? && targetCustomerFlow != null {
        interactPoint := targetCustomerFlow.employeeInteractPoint;
      }
      if interactPoint.None? {
        return;
      }
      state := GoToInteract;
      StartMoveTo(interactPoint.value);
    }

    /** Takes the first waiting customer, or keeps at home when there is
        none (or no spawner). */
    method TryPickNextCustomerOrIdle(spawner: CustomerSpawner?)
      modifies this
      ensures var next := if spawner == null || spawner.slots == null then None
                          else FirstWaiting(spawner.slots[..], null);
              && (next.None? ==>
                    state == old(state) && targetCustomerFlow == old(targetCustomerFlow)
                    && targetCustomerRequest == old(targetCustomerRequest)
                    && interactPoint == old(interactPoint)
                    && (idlePoint.Some? && !old(IsNear(idlePoint.value)) ==> HeadingTo(idlePoint))
                    && (idlePoint.None? || old(IsNear(idlePoint.value)) ==>
                          destination == old(destination) && stopped == old(stopped)))
              && (next.Some? ==>
                    targetCustomerFlow == spawner.slots[next.value]
                    && targetCustomerRequest == targetCustomerFlow.request
                    && interactPoint == (if targetCustomerFlow.employeeInteractPoint.Some?
                                         then targetCustomerFlow.employeeInteractPoint else old(interactPoint))
                    && (interactPoint.Some? ==> state == GoToInteract && HeadingTo(interactPoint))
                    && (interactPoint.None? ==>
                          state == old(state) && destination == old(destination) && stopped == old(stopped)))
      ensures currentStation == old(currentStation) && gatherT == old(gatherT) && carrying == old(carrying)
      ensures onNavMesh == old(onNavMesh) && position == old(position)
    {
      var next: CustomerFlow? := null;
      if spawner != null {
        next := spawner.GetNextWaitingCustomer(null);
      }
      if next != null && next.ArrivedQueue() {
        SetTargetCustomer(next);
        GoToInteractPoint();
      } else {
        KeepAtIdlePoint();
      }
    }

    /** Shows the customer's request bubble again, when the customer wants
        a water bottle: the bubble for `Water`, under the anchor. Any other
        request is left alone. The requested product is never changed. */
    method ActivateCustomerRequest()
      modifies targetCustomerRequest
      ensures targetCustomerRequest != null ==>
                targetCustomerRequest.requestedProduct == old(targetCustomerRequest.requestedProduct)
      ensures targetCustomerRequest != null && old(targetCustomerRequest.requestedProduct) == WaterBottle ==>
                var r := targetCustomerRequest;
                && r.requestedType == Water
                && r.currentThought == (if r.thoughtItemAnchor3D
                                        then match FirstPrefabIndex(r.thoughtPrefabs, Water)
                                             case None => None
                                             case Some(k) => r.thoughtPrefabs[k].prefab3D
                                        else None)
      ensures targetCustomerRequest != null && old(targetCustomerRequest.requestedProduct) != WaterBottle ==>
                unchanged(targetCustomerRequest)
    {
      if targetCustomerRequest == null {
        return;
      }
      if targetCustomerRequest.requestedProduct == WaterBottle {
        targetCustomerRequest.ShowRequestForId(WaterBottle);
      }
    }

    /**
     * Looks up the nearest station providing the requested product and
     * walks to it; goes idle when there is no request, no registry or no
     * such station.
     */
    method DecideAndGoToStation(registry: StationRegistry?)
      modifies this
      ensures state == GoToStation || state == IdleAtHome
      ensures state == GoToStation <==>
                targetCustomerRequest != null && registry != null
                && exists j :: 0 <= j < |registry.stations|
                               && Eligible(registry.stations[j], targetCustomerRequest.requestedProduct)
      ensures targetCustomerRequest != null && registry != null ==>
                currentStation == (match Nearest(registry.stations, targetCustomerRequest.requestedProduct, old(position))
                                   case None => None
                                   case Some(k) => registry.stations[k])
      ensures targetCustomerRequest == null || registry == null ==> currentStation == old(currentStation)
      ensures state == GoToStation ==>
                StationReady(currentStation)
                && currentStation.value.productId == targetCustomerRequest.requestedProduct
                && HeadingTo(currentStation.value.stationPoint)
      ensures state == IdleAtHome ==>
                (idlePoint.Some? ==> HeadingTo(idlePoint))
                && (idlePoint.None? ==> destination == old(destination) && stopped == old(stopped))
      ensures interactPoint == old(interactPoint) && gatherT == old(gatherT) && carrying == old(carrying)
      ensures targetCustomerFlow == old(targetCustomerFlow) && targetCustomerRequest == old(targetCustomerRequest)
      ensures onNavMesh == old(onNavMesh) && position == old(position)
    {
      if targetCustomerRequest == null || registry == null {
        GoIdle();
        return;
      }
      var productId := targetCustomerRequest.requestedProduct;
      currentStation := registry.FindStation(productId, position);
      if currentStation.None? || currentStation.value.stationPoint.None? {
        GoIdle();
        return;
      }
      state := GoToStation;
      StartMoveTo(currentStation.value.stationPoint.value);
    }

    /** Starts gathering: the timer restarts. */
    method BeginGather()
      modifies this
      ensures state == Gathering && gatherT == 0.0
      ensures interactPoint == old(interactPoint) && currentStation == old(currentStation)
      ensures targetCustomerFlow == old(targetCustomerFlow) && targetCustomerRequest == old(targetCustomerRequest)
      ensures carrying == old(carrying) && destination == old(destination) && stopped == old(stopped)
      ensures onNavMesh == old(onNavMesh) && position == old(position)
    {
      state := Gathering;
      gatherT := 0.0;
    }

    /** Drops whatever is held. */
    method ClearCarryItem()
      modifies this
      ensures !carrying
      ensures state == old(state) && interactPoint == old(interactPoint) && currentStation == old(currentStation)
      ensures targetCustomerFlow == old(targetCustomerFlow) && targetCustomerRequest == old(targetCustomerRequest)
      ensures gatherT == old(gatherT) && destination == old(destination) && stopped == old(stopped)
      ensures onNavMesh == old(onNavMesh) && position == old(position)
    {
      if carrying {
        carrying := false;
      }
    }

    /** Puts the station's item in hand, when the station has one and there
        is a hand slot; otherwise the hand is left empty. */
    method SpawnCarryItem()
      modifies this
      ensures carrying <==> currentStation.Some? && currentStation.value.carryItemPrefab && carrySlot
      ensures state == old(state) && interactPoint == old(interactPoint) && currentStation == old(currentStation)
      ensures targetCustomerFlow == old(targetCustomerFlow) && targetCustomerRequest == old(targetCustomerRequest)
      ensures gatherT == old(gatherT) && destination == old(destination) && stopped == old(stopped)
      ensures onNavMesh == old(onNavMesh) && position == old(position)
    {
      ClearCarryItem();
      if currentStation.None? || !currentStation.value.carryItemPrefab {
        return;
      }
      if !carrySlot {
        return;
      }
      carrying := true;
    }

    /** Walks back to the customer, at the customer's own interact point
        when it has one; goes idle when there is no interact point at all. */
    method GoReturnToCustomer()
      modifies this
      ensures interactPoint == (if targetCustomerFlow != null && targetCustomerFlow.employeeInteractPoint.Some?
                                then targetCustomerFlow.employeeInteractPoint else old(interactPoint))
      ensures state == (if interactPoint.Some? then ReturnToCustomer else IdleAtHome)
      ensures interactPoint.Some? && onNavMesh ==> destination == interactPoint && !stopped
      ensures currentStation == old(currentStation) && gatherT == old(gatherT) && carrying == old(carrying)
      ensures targetCustomerFlow == old(targetCustomerFlow) && targetCustomerRequest == old(targetCustomerRequest)
      ensures onNavMesh == old(onNavMesh) && position == old(position)
    {
      if targetCustomerFlow != null && targetCustomerFlow.employeeInteractPoint.Some? {
        interactPoint := targetCustomerFlow.employeeInteractPoint;
      }
      if interactPoint.None? {
        GoIdle();
        return;
      }
      state := ReturnToCustomer;
      StartMoveTo(interactPoint.value);
    }

    /**
     * One frame of gathering: the timer advances by the frame time, and
     * once it reaches the station's duration the item is taken and the
     * employee walks back. Without a station the employee goes idle.
     */
    method TickGather(dt: real)
      modifies this
      ensures currentStation == old(currentStation)
      ensures targetCustomerFlow == old(targetCustomerFlow) && targetCustomerRequest == old(targetCustomerRequest)
      ensures onNavMesh == old(onNavMesh) && position == old(position)
      ensures currentStation.None? ==>
                state == IdleAtHome && gatherT == old(gatherT) && carrying == old(carrying)
                && interactPoint == old(interactPoint)
      ensures currentStation.Some? ==> gatherT == old(gatherT) + dt
      ensures currentStation.Some? && gatherT < GatherDuration(currentStation.value.gatherTime) ==>
                state == old(state) && interactPoint == old(interactPoint) && carrying == old(carrying)
                && destination == old(destination) && stopped == old(stopped)
      ensures currentStation.Some? && gatherT >= GatherDuration(currentStation.value.gatherTime) ==>
                (carrying <==> currentStation.value.carryItemPrefab && carrySlot)
                && interactPoint == (if targetCustomerFlow != null && targetCustomerFlow.employeeInteractPoint.Some?
                                     then targetCustomerFlow.employeeInteractPoint else old(interactPoint))
                && state == (if interactPoint.Some? then ReturnToCustomer else IdleAtHome)
                && (interactPoint.Some? && onNavMesh ==> destination == interactPoint && !stopped)
    {
      if currentStation.None? {
        GoIdle();
        return;
      }
      var dur := GatherDuration(currentStation.value.gatherTime);
      gatherT := gatherT + dt;
      if gatherT >= dur {
        SpawnCarryItem();
        GoReturnToCustomer();
      }
    }

    /**
     * The delivery: the request bubble is hidden, the hand emptied, the
     * station's price (never negative; nothing without a station) credited
     * when there is a money manager, the customer sent to the exit, and the
     * target, interact point and station cleared. Returns the customer
     * served.
     */
    method DeliverAndClearTarget(now: real, money: MoneyManager?) returns (served: CustomerFlow?)
      modifies this, money, targetCustomerFlow, targetCustomerRequest
      ensures served == old(targetCustomerFlow)
      ensures money != null ==> money.money == Credited(old(money.money), Credit(old(currentStation)))
      ensures old(targetCustomerRequest) != null ==> !old(targetCustomerRequest).IsRequestVisible()
      ensures served != null && served.exitPoint.Some? ==>
                served.state == Leaving && served.destination == served.exitPoint
      ensures served != null && served.exitPoint.None? ==> served.state == old(served.state)
      ensures targetCustomerFlow == null && targetCustomerRequest == null
      ensures interactPoint.None? && currentStation.None? && !carrying
      ensures state == old(state) && gatherT == old(gatherT)
      ensures destination == old(destination) && stopped == old(stopped)
      ensures onNavMesh == old(onNavMesh) && position == old(position)
    {
      served := targetCustomerFlow;
      if targetCustomerRequest != null {
        targetCustomerRequest.HideRequest();
      }
      ClearCarryItem();
      if money != null {
        var add: int32 := 0;
        if currentStation.Some? && currentStation.value.price >= 0 {
          add := currentStation.value.price;
        }
        money.Add(add);
      }
      if served != null {
        served.Leave(now);
      }
      targetCustomerFlow := null;
      targetCustomerRequest := null;
      interactPoint := None;
      currentStation := None;
    }

    /** Idle: go to the customer already chosen once it waits at its slot,
        otherwise look for one. */
    method TickIdle(spawner: CustomerSpawner?)
      requires Valid() && state == IdleAtHome
      modifies this
      ensures Valid()
      ensures state == IdleAtHome || state == GoToInteract
      ensures state == GoToInteract ==> targetCustomerFlow != null && targetCustomerFlow.state == Waiting
      ensures old(targetCustomerFlow != null && targetCustomerFlow.state == Waiting) ==>
                && targetCustomerFlow == old(targetCustomerFlow)
                && interactPoint == (if old(interactPoint).None? then targetCustomerFlow.employeeInteractPoint
                                     else old(interactPoint))
                && (state == GoToInteract <==> interactPoint.Some?)
                && (interactPoint.Some? ==> HeadingTo(interactPoint))
                && (interactPoint.None? ==> destination == old(destination) && stopped == old(stopped))
      ensures var next := if spawner == null || spawner.slots == null then None
                          else FirstWaiting(spawner.slots[..], null);
              old(targetCustomerFlow == null || targetCustomerFlow.state != Waiting) ==>
                && (next.None? ==>
                      state == IdleAtHome && targetCustomerFlow == old(targetCustomerFlow)
                      && (idlePoint.Some? && !old(IsNear(idlePoint.value)) ==> HeadingTo(idlePoint))
                      && (idlePoint.None? || old(IsNear(idlePoint.value)) ==>
                            destination == old(destination) && stopped == old(stopped)))
                && (next.Some? ==>
                      targetCustomerFlow == spawner.slots[next.value]
                      && interactPoint == (if targetCustomerFlow.employeeInteractPoint.Some?
                                           then targetCustomerFlow.employeeInteractPoint else old(interactPoint))
                      && (state == GoToInteract <==> interactPoint.Some?)
                      && (interactPoint.Some? ==> HeadingTo(interactPoint))
                      && (interactPoint.None? ==> destination == old(destination) && stopped == old(stopped)))
      ensures currentStation == old(currentStation) && carrying == old(carrying)
      ensures onNavMesh == old(onNavMesh)
    {
      if targetCustomerFlow != null && targetCustomerFlow.ArrivedQueue() {
        GoToInteractPoint();
      } else {
        TryPickNextCustomerOrIdle(spawner);
      }
    }

    /**
     * Delivery, then the next customer: the next waiting customer other
     * than the one just served, or home. When that customer's slot has no
     * interact point the state stays `Deliver` with neither interact point
     * nor station, and the next frame delivers to it for nothing.
     */
    method TickDeliver(now: real, spawner: CustomerSpawner?, money: MoneyManager?)
      requires Valid() && state == Deliver
      modifies this, money, targetCustomerFlow, targetCustomerRequest
      ensures Valid()
      ensures money != null ==> money.money == Credited(old(money.money), Credit(old(currentStation)))
      ensures old(targetCustomerFlow).exitPoint.Some? ==> old(targetCustomerFlow).state == Leaving
      ensures old(targetCustomerRequest) != null ==> !old(targetCustomerRequest).IsRequestVisible()
      ensures targetCustomerFlow != old(targetCustomerFlow)
      ensures state in {IdleAtHome, GoToInteract, Deliver}
      ensures state == IdleAtHome ==> targetCustomerFlow == null
      ensures state != IdleAtHome ==> targetCustomerFlow != null && targetCustomerFlow.state == Waiting
      ensures var next := if spawner == null || spawner.slots == null then None
                          else FirstWaiting(spawner.slots[..], old(targetCustomerFlow));
              && (next.None? ==>
                    state == IdleAtHome && targetCustomerFlow == null
                    && (idlePoint.Some? ==> HeadingTo(idlePoint))
                    && (idlePoint.None? ==> destination == old(destination) && stopped == old(stopped)))
              && (next.Some? ==>
                    targetCustomerFlow == spawner.slots[next.value]
                    && interactPoint == targetCustomerFlow.employeeInteractPoint
                    && state == (if interactPoint.Some? then GoToInteract else Deliver)
                    && (interactPoint.Some? ==> HeadingTo(interactPoint))
                    && (interactPoint.None? ==> destination == old(destination) && stopped == old(stopped)))
      ensures !carrying && currentStation.None?
      ensures onNavMesh == old(onNavMesh)
    {
      var served := DeliverAndClearTarget(now, money);
      var next: CustomerFlow? := null;
      if spawner != null {
        next := spawner.GetNextWaitingCustomer(served);
      }
      if next != null && next.ArrivedQueue() {
        SetTargetCustomer(next);
        GoToInteractPoint();
      } else {
        GoIdle();
      }
    }

    /** Walking to the customer: on arrival, stops and goes on to the
        request. */
    method TickGoToInteract(nav: NavReport)
      requires Valid() && state == GoToInteract
      modifies this
      ensures Valid()
      ensures state == (if HasArrived(nav) then ActivateRequest else GoToInteract)
      ensures HasArrived(nav) ==> stopped && destination.None?
      ensures !HasArrived(nav) ==> unchanged(this)
      ensures interactPoint == old(interactPoint) && currentStation == old(currentStation)
      ensures targetCustomerFlow == old(targetCustomerFlow) && targetCustomerRequest == old(targetCustomerRequest)
      ensures carrying == old(carrying) && onNavMesh == old(onNavMesh) && position == old(position)
      ensures gatherT == old(gatherT)
    {
      if HasArrived(nav) {
        StopMove();
        state := ActivateRequest;
      }
    }

    /** Shows the request again, then picks the station and walks to it
        (or goes idle). */
    method TickActivateRequest(registry: StationRegistry?)
      requires Valid() && state == ActivateRequest
      modifies this, targetCustomerRequest
      ensures Valid()
      ensures targetCustomerFlow == old(targetCustomerFlow) && targetCustomerRequest == old(targetCustomerRequest)
      ensures state == GoToStation || state == IdleAtHome
      ensures targetCustomerRequest != null ==>
                targetCustomerRequest.requestedProduct == old(targetCustomerRequest.requestedProduct)
      ensures targetCustomerRequest != null && old(targetCustomerRequest.requestedProduct) == WaterBottle ==>
                var r := targetCustomerRequest;
                && r.requestedType == Water
                && r.currentThought == (if r.thoughtItemAnchor3D
                                        then match FirstPrefabIndex(r.thoughtPrefabs, Water)
                                             case None => None
                                             case Some(k) => r.thoughtPrefabs[k].prefab3D
                                        else None)
      ensures targetCustomerRequest != null && old(targetCustomerRequest.requestedProduct) != WaterBottle ==>
                unchanged(targetCustomerRequest)
      ensures state == GoToStation <==>
                targetCustomerRequest != null && registry != null
                && exists j :: 0 <= j < |registry.stations|
                               && Eligible(registry.stations[j], targetCustomerRequest.requestedProduct)
      ensures state == GoToStation ==>
                StationReady(currentStation)
                && currentStation.value.productId == targetCustomerRequest.requestedProduct
                && HeadingTo(currentStation.value.stationPoint)
      ensures state == IdleAtHome && idlePoint.Some? ==> HeadingTo(idlePoint)
      ensures interactPoint == old(interactPoint) && gatherT == old(gatherT) && carrying == old(carrying)
      ensures onNavMesh == old(onNavMesh) && position == old(position)
    {
      ActivateCustomerRequest();
      DecideAndGoToStation(registry);
    }

    /** Walking to the station: on arrival, stops and starts gathering. */
    method TickGoToStation(nav: NavReport)
      requires Valid() && state == GoToStation
      modifies this
      ensures Valid()
      ensures HasArrived(nav) ==> state == Gathering && gatherT == 0.0 && stopped && destination.None?
      ensures !HasArrived(nav) ==> unchanged(this)
      ensures interactPoint == old(interactPoint) && currentStation == old(currentStation)
      ensures targetCustomerFlow == old(targetCustomerFlow) && targetCustomerRequest == old(targetCustomerRequest)
      ensures carrying == old(carrying) && onNavMesh == old(onNavMesh) && position == old(position)
    {
      if HasArrived(nav) {
        StopMove();
        BeginGather();
      }
    }

    /** Walking back to the customer: on arrival, stops and delivers next. */
    method TickReturnToCustomer(nav: NavReport)
      requires Valid() && state == ReturnToCustomer
      modifies this
      ensures Valid()
      ensures state == (if HasArrived(nav) then Deliver else ReturnToCustomer)
      ensures HasArrived(nav) ==> stopped && destination.None?
      ensures !HasArrived(nav) ==> unchanged(this)
      ensures interactPoint == old(interactPoint) && currentStation == old(currentStation)
      ensures targetCustomerFlow == old(targetCustomerFlow) && targetCustomerRequest == old(targetCustomerRequest)
      ensures carrying == old(carrying) && onNavMesh == old(onNavMesh) && position == old(position)
      ensures gatherT == old(gatherT)
    {
      if HasArrived(nav) {
        StopMove();
        state := Deliver;
      }
    }

    /**
     * The frame's step once the agent is on the mesh: each state does its
     * one step; see the clauses below for what each step promises.
     */
    method Step(now: real, dt: real, nav: NavReport,
                spawner: CustomerSpawner?, registry: StationRegistry?, money: MoneyManager?)
      requires Valid() && onNavMesh && dt >= 0.0
      modifies this, money, targetCustomerFlow, targetCustomerRequest
      ensures Valid()
      ensures onNavMesh
      ensures old(state) != Deliver ==> money != null ==> money.money == old(money.money)
      ensures old(state) != Deliver ==>
                var c := old(targetCustomerFlow); c != null ==> unchanged(c)
      ensures old(state) != Deliver && old(state) != ActivateRequest ==>
                var r := old(targetCustomerRequest); r != null ==> unchanged(r)
      ensures old(state) == ActivateRequest ==>
                var r := old(targetCustomerRequest);
                r != null && old(r.requestedProduct) == WaterBottle ==>
                  && r.requestedType == Water
                  && r.currentThought == (if r.thoughtItemAnchor3D
                                          then match FirstPrefabIndex(r.thoughtPrefabs, Water)
                                               case None => None
                                               case Some(k) => r.thoughtPrefabs[k].prefab3D
                                          else None)
      ensures old(state) == ActivateRequest ==>
                var r := old(targetCustomerRequest);
                r != null && old(r.requestedProduct) != WaterBottle ==> unchanged(r)
      ensures old(state) == Deliver ==>
                var r := old(targetCustomerRequest); r != null ==> !r.IsRequestVisible()
      ensures old(state) == GoToInteract ==>
                state == (if EmployeeArrived(nav) then ActivateRequest else GoToInteract)
      ensures (old(state) == GoToInteract || old(state) == GoToStation || old(state) == ReturnToCustomer) ==>
                if EmployeeArrived(nav) then stopped && destination.None?
                else destination == old(destination) && stopped == old(stopped)
      ensures old(state) == ActivateRequest ==>
                && (state == GoToStation || state == IdleAtHome)
                && (state == GoToStation <==>
                      old(targetCustomerRequest) != null && registry != null
                      && exists j :: 0 <= j < |registry.stations|
                                     && Eligible(registry.stations[j], old(targetCustomerRequest.requestedProduct)))
                && (state == GoToStation ==>
                      StationReady(currentStation)
                      && currentStation.value.productId == old(targetCustomerRequest.requestedProduct)
                      && HeadingTo(currentStation.value.stationPoint))
                && (state == IdleAtHome && idlePoint.Some? ==> HeadingTo(idlePoint))
      ensures old(state) == GoToStation ==>
                if EmployeeArrived(nav) then state == Gathering && gatherT == 0.0 else state == GoToStation
      ensures old(state) == Gathering ==>
                gatherT == old(gatherT) + dt
                && (state == ReturnToCustomer <==> gatherT >= GatherDuration(old(currentStation).value.gatherTime))
                && (state == Gathering <==> gatherT < GatherDuration(old(currentStation).value.gatherTime))
                && (state == Gathering ==>
                      carrying == old(carrying) && interactPoint == old(interactPoint)
                      && destination == old(destination) && stopped == old(stopped))
                && (state == ReturnToCustomer ==>
                      (carrying <==> old(currentStation).value.carryItemPrefab && carrySlot)
                      && interactPoint == (if targetCustomerFlow != null && targetCustomerFlow.employeeInteractPoint.Some?
                                           then targetCustomerFlow.employeeInteractPoint else old(interactPoint))
                      && HeadingTo(interactPoint))
      ensures old(state) == ReturnToCustomer ==>
                state == (if EmployeeArrived(nav) then Deliver else ReturnToCustomer)
      ensures old(state) == Deliver ==>
                && (money != null ==> money.money == Credited(old(money.money), Credit(old(currentStation))))
                && targetCustomerFlow != old(targetCustomerFlow)
                && (old(targetCustomerFlow).exitPoint.Some? ==> old(targetCustomerFlow).state == Leaving)
      ensures old(state) == Deliver ==>
                var next := if spawner == null || spawner.slots == null then None
                            else FirstWaiting(spawner.slots[..], old(targetCustomerFlow));
                && (next.None? ==>
                      state == IdleAtHome && targetCustomerFlow == null
                      && (idlePoint.Some? ==> HeadingTo(idlePoint)))
                && (next.Some? ==>
                      targetCustomerFlow == spawner.slots[next.value]
                      && interactPoint == targetCustomerFlow.employeeInteractPoint
                      && state == (if interactPoint.Some? then GoToInteract else Deliver)
                      && (interactPoint.Some? ==> HeadingTo(interactPoint)))
      ensures old(state) == IdleAtHome ==>
                state == IdleAtHome || (state == GoToInteract && targetCustomerFlow.state == Waiting)
      ensures old(state) == IdleAtHome
              && old(targetCustomerFlow != null && targetCustomerFlow.state == Waiting) ==>
                targetCustomerFlow == old(targetCustomerFlow) && (state == GoToInteract <==> interactPoint.Some?)
                && (interactPoint.Some? ==> HeadingTo(interactPoint))
      ensures old(state) == IdleAtHome
              && old(targetCustomerFlow == null || targetCustomerFlow.state != Waiting) ==>
                var next := if spawner == null || spawner.slots == null then None
                            else FirstWaiting(spawner.slots[..], null);
                && (next.None? ==>
                      state == IdleAtHome && targetCustomerFlow == old(targetCustomerFlow)
                      && (idlePoint.Some? && !old(IsNear(idlePoint.value)) ==> HeadingTo(idlePoint)))
                && (next.Some? ==>
                      targetCustomerFlow == spawner.slots[next.value]
                      && interactPoint == (if targetCustomerFlow.employeeInteractPoint.Some?
                                           then targetCustomerFlow.employeeInteractPoint else old(interactPoint))
                      && (state == GoToInteract <==> interactPoint.Some?)
                      && (interactPoint.Some? ==> HeadingTo(interactPoint)))
    {
      match state
      case IdleAtHome =>
        TickIdle(spawner);
      case GoToInteract =>
        TickGoToInteract(nav);
      case ActivateRequest =>
        TickActivateRequest(registry);
      case GoToStation =>
        TickGoToStation(nav);
      case Gathering =>
        TickGather(dt);
      case ReturnToCustomer =>
        TickReturnToCustomer(nav);
      case Deliver =>
        TickDeliver(now, spawner, money);
    }

    /**
     * One frame of the employee. Nothing happens unless the agent is, or
     * can be put, on the mesh; then the state makes its step.
     */
    method Update(now: real, dt: real, nav: NavReport, sampleHit: bool,
                  spawner: CustomerSpawner?, registry: StationRegistry?, money: MoneyManager?)
      requires Valid() && dt >= 0.0
      modifies this, money, targetCustomerFlow, targetCustomerRequest
      ensures Valid()
      ensures !old(onNavMesh) && !sampleHit ==> unchanged(this)
      ensures !old(onNavMesh) && !sampleHit ==>
                (var c := old(targetCustomerFlow); c != null ==> unchanged(c))
                && (var r := old(targetCustomerRequest); r != null ==> unchanged(r))
      ensures old(state) != Deliver ==>
                var c := old(targetCustomerFlow); c != null ==> unchanged(c)
      ensures old(state) != Deliver && old(state) != ActivateRequest ==>
                var r := old(targetCustomerRequest); r != null ==> unchanged(r)
      ensures (old(onNavMesh) || sampleHit) && old(state) == ActivateRequest ==>
                var r := old(targetCustomerRequest);
                r != null && old(r.requestedProduct) == WaterBottle ==>
                  && r.requestedType == Water
                  && r.currentThought == (if r.thoughtItemAnchor3D
                                          then match FirstPrefabIndex(r.thoughtPrefabs, Water)
                                               case None => None
                                               case Some(k) => r.thoughtPrefabs[k].prefab3D
                                          else None)
      ensures (old(onNavMesh) || sampleHit) && old(state) == ActivateRequest ==>
                var r := old(targetCustomerRequest);
                r != null && old(r.requestedProduct) != WaterBottle ==> unchanged(r)
      ensures (old(onNavMesh) || sampleHit) && old(state) == Deliver ==>
                var r := old(targetCustomerRequest); r != null ==> !r.IsRequestVisible()
      ensures old(state) != Deliver || (!old(onNavMesh) && !sampleHit) ==>
                money != null ==> money.money == old(money.money)
      ensures old(onNavMesh) || sampleHit ==> onNavMesh
      ensures (old(onNavMesh) || sampleHit) && old(state) == GoToInteract ==>
                state == (if EmployeeArrived(nav) then ActivateRequest else GoToInteract)
      ensures (old(onNavMesh) || sampleHit)
              && (old(state) == GoToInteract || old(state) == GoToStation || old(state) == ReturnToCustomer) ==>
                if EmployeeArrived(nav) then stopped && destination.None?
                else destination == old(destination) && stopped == old(stopped)
      ensures (old(onNavMesh) || sampleHit) && old(state) == ActivateRequest ==>
                && (state == GoToStation || state == IdleAtHome)
                && (state == GoToStation <==>
                      old(targetCustomerRequest) != null && registry != null
                      && exists j :: 0 <= j < |registry.stations|
                                     && Eligible(registry.stations[j], old(targetCustomerRequest.requestedProduct)))
                && (state == GoToStation ==>
                      StationReady(currentStation)
                      && currentStation.value.productId == old(targetCustomerRequest.requestedProduct)
                      && HeadingTo(currentStation.value.stationPoint))
                && (state == IdleAtHome && idlePoint.Some? ==> HeadingTo(idlePoint))
      ensures (old(onNavMesh) || sampleHit) && old(state) == GoToStation ==>
                if EmployeeArrived(nav) then state == Gathering && gatherT == 0.0 else state == GoToStation
      ensures (old(onNavMesh) || sampleHit) && old(state) == Gathering ==>
                gatherT == old(gatherT) + dt
                && (state == ReturnToCustomer <==> gatherT >= GatherDuration(old(currentStation).value.gatherTime))
                && (state == Gathering <==> gatherT < GatherDuration(old(currentStation).value.gatherTime))
                && (state == Gathering ==>
                      carrying == old(carrying) && interactPoint == old(interactPoint)
                      && destination == old(destination) && stopped == old(stopped))
                && (state == ReturnToCustomer ==>
                      (carrying <==> old(currentStation).value.carryItemPrefab && carrySlot)
                      && interactPoint == (if targetCustomerFlow != null && targetCustomerFlow.employeeInteractPoint.Some?
                                           then targetCustomerFlow.employeeInteractPoint else old(interactPoint))
                      && HeadingTo(interactPoint))
      ensures (old(onNavMesh) || sampleHit) && old(state) == ReturnToCustomer ==>
                state == (if EmployeeArrived(nav) then Deliver else ReturnToCustomer)
      ensures (old(onNavMesh) || sampleHit) && old(state) == Deliver ==>
                && (money != null ==> money.money == Credited(old(money.money), Credit(old(currentStation))))
                && targetCustomerFlow != old(targetCustomerFlow)
                && (old(targetCustomerFlow).exitPoint.Some? ==> old(targetCustomerFlow).state == Leaving)
      ensures (old(onNavMesh) || sampleHit) && old(state) == Deliver ==>
                var next := if spawner == null || spawner.slots == null then None
                            else FirstWaiting(spawner.slots[..], old(targetCustomerFlow));
                && (next.None? ==>
                      state == IdleAtHome && targetCustomerFlow == null
                      && (idlePoint.Some? ==> HeadingTo(idlePoint)))
                && (next.Some? ==>
                      targetCustomerFlow == spawner.slots[next.value]
                      && interactPoint == targetCustomerFlow.employeeInteractPoint
                      && state == (if interactPoint.Some? then GoToInteract else Deliver)
                      && (interactPoint.Some? ==> HeadingTo(interactPoint)))
      ensures (old(onNavMesh) || sampleHit) && old(state) == IdleAtHome ==>
                state == IdleAtHome || (state == GoToInteract && targetCustomerFlow.state == Waiting)
      ensures (old(onNavMesh) || sampleHit) && old(state) == IdleAtHome
              && old(targetCustomerFlow != null && targetCustomerFlow.state == Waiting) ==>
                targetCustomerFlow == old(targetCustomerFlow) && (state == GoToInteract <==> interactPoint.Some?)
                && (interactPoint.Some? ==> HeadingTo(interactPoint))
      ensures (old(onNavMesh) || sampleHit) && old(state) == IdleAtHome
              && old(targetCustomerFlow == null || targetCustomerFlow.state != Waiting) ==>
                var next := if spawner == null || spawner.slots == null then None
                            else FirstWaiting(spawner.slots[..], null);
                && (next.None? ==>
                      state == IdleAtHome && targetCustomerFlow == old(targetCustomerFlow)
                      && (idlePoint.Some? && !old(IsNear(idlePoint.value)) ==> HeadingTo(idlePoint)))
                && (next.Some? ==>
                      targetCustomerFlow == spawner.slots[next.value]
                      && interactPoint == (if targetCustomerFlow.employeeInteractPoint.Some?
                                           then targetCustomerFlow.employeeInteractPoint else old(interactPoint))
                      && (state == GoToInteract <==> interactPoint.Some?)
                      && (interactPoint.Some? ==> HeadingTo(interactPoint)))
    {
      var ok := EnsureOnNavMesh(sampleHit);
      if !ok {
        return;
      }
      Step(now, dt, nav, spawner, registry, money);
    }
  }
}

=== FILE: game_config.dfy ===
/**
 * Game configuration: the unlocked product types and the table of
 * product definitions, indexed by type when the component wakes up.
 */
module Config {

  import opened Common
  import opened Products

  /** The table built from a definition list: entries are added in list
      order, null entries are skipped, and a later definition of a type
      replaces an earlier one. */
  ghost function DefinitionMap(defs: seq<Option<ProductDefinition>>): map<ProductType, ProductDefinition>
  {
    if defs == [] then map[]
    else
      var m := DefinitionMap(defs[..|defs| - 1]);
      match defs[|defs| - 1]
      case None => m
      case Some(d) => m[d.productType := d]
  }

  /** Entry `i` defines type `t`. */
  ghost predicate Defines(defs: seq<Option<ProductDefinition>>, i: int, t: ProductType)
  {
    0 <= i < |defs| && defs[i].Some? && defs[i].value.productType == t
  }

  /** A type is in the table exactly when some non-null entry defines it. */
  lemma {:induction false} DefinitionMapKeys(defs: seq<Option<ProductDefinition>>, t: ProductType)
    ensures t in DefinitionMap(defs) <==> exists i :: Defines(defs, i, t)
  {
    if defs != [] {
      var init := defs[..|defs| - 1];
      DefinitionMapKeys(init, t);
      if exists i :: Defines(init, i, t) {
        var i :| Defines(init, i, t);
        assert Defines(defs, i, t);
      }
      if exists i :: Defines(defs, i, t) {
        var i :| Defines(defs, i, t);
        if i < |defs| - 1 {
          assert Defines(init, i, t);
        }
      }
      if t in DefinitionMap(defs) && t !in DefinitionMap(init) {
        assert Defines(defs, |defs| - 1, t);
      }
    }
  }

  /** The table maps a type to its LAST definition in list order. */
  lemma {:induction false} DefinitionMapLastWins(defs: seq<Option<ProductDefinition>>, i: int, t: ProductType)
    requires Defines(defs, i, t)
    requires forall j :: i < j < |defs| ==> !Defines(defs, j, t)
    ensures t in DefinitionMap(defs) && DefinitionMap(defs)[t] == defs[i].value
  {
    var init := defs[..|defs| - 1];
    if i < |defs| - 1 {
      assert !Defines(defs, |defs| - 1, t);
      forall j | i < j < |init| ensures !Defines(init, j, t) {
        assert !Defines(defs, j, t);
      }
      DefinitionMapLastWins(init, i, t);
    }
  }

  /** Every entry of the table is stored under its own type. */
  lemma {:induction false} DefinitionMapTyped(defs: seq<Option<ProductDefinition>>, t: ProductType)
    requires t in DefinitionMap(defs)
    ensures DefinitionMap(defs)[t].productType == t
  {
    var init := defs[..|defs| - 1];
    if defs[|defs| - 1].None? || defs[|defs| - 1].value.productType != t {
      DefinitionMapTyped(init, t);
    }
  }

  class GameConfig {
    var unlockedProductTypes: seq<ProductType>
    var productDefinitions: seq<Option<ProductDefinition>>
    /** The dictionary filled by `Awake`. */
    var definitions: map<ProductType, ProductDefinition>

    ghost predicate Valid()
      reads this
    {
      definitions == DefinitionMap(productDefinitions)
    }

    /** The component as the scene declares it by default: only water is
        unlocked and there are no definitions. */
    constructor Default()
      ensures unlockedProductTypes == [Water] && productDefinitions == []
      ensures Valid() && definitions == map[]
    {
      unlockedProductTypes := [Water];
      productDefinitions := [];
      definitions := map[];
    }

    /** The component with lists set in the scene, after `Awake`. */
    constructor (unlocked: seq<ProductType>, defs: seq<Option<ProductDefinition>>)
      ensures unlockedProductTypes == unlocked && productDefinitions == defs
      ensures Valid()
    {
      unlockedProductTypes := unlocked;
      productDefinitions := defs;
      definitions := map[];
      new;
      Awake();
    }

    /** Rebuilds the table from `productDefinitions`, entry by entry. */
    method Awake()
      modifies this
      ensures Valid()
      ensures unlockedProductTypes == old(unlockedProductTypes)
      ensures productDefinitions == old(productDefinitions)
    {
      var m: map<ProductType, ProductDefinition> := map[];
      for i := 0 to |productDefinitions|
        invariant m == DefinitionMap(productDefinitions[..i])
      {
        assert productDefinitions[..i + 1][..i] == productDefinitions[..i];
        match productDefinitions[i]
        case None =>
        case Some(d) => m := m[d.productType := d];
      }
      assert productDefinitions[..|productDefinitions|] == productDefinitions;
      definitions := m;
    }

    /** The unlocked list itself, neither copied nor filtered. */
    function GetUnlockedProducts(): (r: seq<ProductType>)
      reads this
      ensures r == unlockedProductTypes
    {
      unlockedProductTypes
    }

    /** The last definition of `t` in the list, or none when no
        non-null entry defines it. */
    function GetDefinition(t: ProductType): (r: Option<ProductDefinition>)
      reads this
      requires Valid()
      ensures r.None? <==> forall i :: !Defines(productDefinitions, i, t)
      ensures r.Some? ==> r.value.productType == t
      ensures r.Some? ==> exists i :: Defines(productDefinitions, i, t)
                                     && productDefinitions[i] == r
                                     && forall j :: i < j < |productDefinitions| ==> !Defines(productDefinitions, j, t)
    {
      DefinitionMapKeys(productDefinitions, t);
      if t in definitions then
        DefinitionMapTyped(productDefinitions, t);
        LastDefinitionExists(productDefinitions, t);
        Some(definitions[t])
      else None
    }
  }

  /** When a type is defined, the table entry is its last definition. */
  lemma {:induction false} LastDefinitionExists(defs: seq<Option<ProductDefinition>>, t: ProductType)
    requires t in DefinitionMap(defs)
    ensures exists i :: Defines(defs, i, t) && defs[i] == Some(DefinitionMap(defs)[t])
                        && forall j :: i < j < |defs| ==> !Defines(defs, j, t)
  {
    var last := |defs| - 1;
    if Defines(defs, last, t) {
      DefinitionMapLastWins(defs, last, t);
    } else {
      var init := defs[..last];
      assert t in DefinitionMap(init) && DefinitionMap(defs)[t] == DefinitionMap(init)[t];
      LastDefinitionExists(init, t);
      var i :| Defines(init, i, t) && init[i] == Some(DefinitionMap(init)[t])
               && forall j :: i < j < |init| ==> !Defines(init, j, t);
      assert Defines(defs, i, t);
      forall j | i < j < |defs| ensures !Defines(defs, j, t) {
        if j < last { assert !Defines(init, j, t); }
      }
    }
  }
}

=== FILE: money_manager.dfy ===
/**
 * The ledger: a running total of money in a C# `int`. Credits are never
 * negative, so the total grows, until it passes `int.MaxValue` and wraps.
 */
module Economy {

  import opened Common

  /** The part of an amount the ledger takes (`Mathf.Max(0, amount)`):
      a positive amount whole, anything else as 0. */
  function Accepted(amount: int32): (a: nat)
    ensures amount > 0 ==> a == amount as int
    ensures amount <= 0 ==> a == 0
  {
    if amount > 0 then amount as int else 0
  }

  /** The balance after crediting `amount`: negative amounts count as 0,
      and the sum wraps as C#'s unchecked `int` addition does. */
  function Credited(balance: int32, amount: int32): (r: int32)
    ensures balance as int + Accepted(amount) < 0x8000_0000 ==>
              r as int == balance as int + Accepted(amount) && r >= balance
    ensures amount <= 0 ==> r == balance
  {
    Wrap32(balance as int + Accepted(amount))
  }

  /** A credit that carries the sum past `int.MaxValue` leaves the balance
      negative and lower than before: the ledger does not only grow. */
  lemma CreditedOverflow(balance: int32, amount: int32)
    requires balance as int + amount as int >= 0x8000_0000
    ensures Credited(balance, amount) < 0 && Credited(balance, amount) < balance
    ensures Credited(balance, amount) as int == balance as int + amount as int - 0x1_0000_0000
  {
    var sum := balance as int + amount as int;
    assert 0x8000_0000 <= sum < 0x1_0000_0000;
    assert (sum + 0x8000_0000) % 0x1_0000_0000 == sum + 0x8000_0000 - 0x1_0000_0000;
  }

  class MoneyManager {
    var money: int32

    /** `money` starts at 0. */
    constructor ()
      ensures money == 0
    {
      money := 0;
    }

    /** Credits `max(0, amount)`: negative amounts are ignored. */
    method Add(amount: int32)
      modifies this
      ensures money == Credited(old(money), amount)
      ensures amount <= 0 ==> money == old(money)
    {
      money := Wrap32(money as int + Accepted(amount));
    }
  }
}

=== FILE: products.dfy ===
/**
 * The two product identifier schemes of the shop. `ProductId` (namespace
 * Shop) is what stations and the employee use; `ProductType` is the older
 * scheme used by thought-bubble prefabs and the game configuration. Both
 * are C# enums; only the member the core names is known, every other
 * underlying value is kept as `Other*(code)`.
 */
module Products {

  datatype ProductId = WaterBottle | OtherProductId(code: int)

  datatype ProductType = Water | OtherProductType(code: int)

  /** A product definition asset. Only its `type` (here `productType`) is read by the core; `key`
      stands for the asset's identity, so that two definitions of the same
      type can be told apart. */
  datatype ProductDefinition = ProductDefinition(productType: ProductType, key: nat)
}

=== FILE: station_registry.dfy ===
/**
 * Stations and the registry that answers "nearest station providing
 * product P" queries.
 */
module Shop {

  import opened Common
  import opened Products

  /**
   * A station of the shop. `stationPoint` is where the employee stands to
   * gather, `gatherTime` how long gathering takes, `carryItemPrefab` whether
   * a carried prop is configured, `price` what a delivery from it earns.
   * Stations are never changed at runtime, so a station is a value.
   */
  datatype Station = Station(
    productId: ProductId,
    stationPoint: Option<Vec3>,
    gatherTime: real,
    carryItemPrefab: bool,
    price: int32)

  /** A registry entry the query for `pid` may return: non-null, providing
      `pid`, and with a station point to walk to. */
  predicate Eligible(entry: Option<Station>, pid: ProductId)
  {
    entry.Some? && entry.value.productId == pid && entry.value.stationPoint.Some?
  }

  /** Squared distance from `from` to the station point of an eligible entry. */
  function DistanceTo(entry: Option<Station>, from: Vec3): (d: real)
    requires entry.Some? && entry.value.stationPoint.Some?
    ensures d >= 0.0
    ensures from == entry.value.stationPoint.value ==> d == 0.0
  {
    SqDist(from, entry.value.stationPoint.value)
  }

  /**
   * Index of the entry a front-to-back scan keeps: an eligible entry
   * replaces the current best only when it is strictly nearer.
   */
  function Nearest(stations: seq<Option<Station>>, pid: ProductId, from: Vec3): (k: Option<nat>)
    ensures k.Some? ==> k.value < |stations| && Eligible(stations[k.value], pid)
  {
    if stations == [] then None
    else
      var n := |stations| - 1;
      var best := Nearest(stations[..n], pid, from);
      if Eligible(stations[n], pid)
         && (best.None? || DistanceTo(stations[n], from) < DistanceTo(stations[best.value], from))
      then Some(n)
      else best
  }

  /** The query finds nothing exactly when no entry is eligible. */
  lemma {:induction false} NearestNoneIff(stations: seq<Option<Station>>, pid: ProductId, from: Vec3)
    ensures Nearest(stations, pid, from).None?
            <==> forall j :: 0 <= j < |stations| ==> !Eligible(stations[j], pid)
  {
    if stations != [] {
      var n := |stations| - 1;
      NearestNoneIff(stations[..n], pid, from);
      assert forall j :: 0 <= j < n ==> stations[..n][j] == stations[j];
    }
  }

  /**
   * The entry found is at least as near as every eligible entry, and
   * strictly nearer than every eligible entry before it: on a tie the
   * earliest entry wins.
   */
  lemma {:induction false} NearestIsFirstMinimum(stations: seq<Option<Station>>, pid: ProductId, from: Vec3, j: nat)
    requires Nearest(stations, pid, from).Some?
    requires j < |stations| && Eligible(stations[j], pid)
    ensures var k := Nearest(stations, pid, from).value;
            DistanceTo(stations[k], from) <= DistanceTo(stations[j], from)
            && (j < k ==> DistanceTo(stations[k], from) < DistanceTo(stations[j], from))
  {
    var n := |stations| - 1;
    var init := stations[..n];
    var best := Nearest(init, pid, from);
    if j < n {
      assert init[j] == stations[j];
      NearestNoneIff(init, pid, from);
      NearestIsFirstMinimum(init, pid, from, j);
    } else if best.Some? {
      assert init[best.value] == stations[best.value];
    }
  }

  class StationRegistry {
    /** The registered stations, in registration order; entries may be null. */
    var stations: seq<Option<Station>>

    /** `Awake`: the list is replaced by the stations found in the scene. */
    constructor (found: seq<Option<Station>>)
      ensures stations == found
    {
      stations := found;
    }

    /**
     * The nearest station to `fromPosition` that provides `productId` and
     * has a station point; the first such station in list order on a tie.
     */
    method FindStation(productId: ProductId, fromPosition: Vec3) returns (best: Option<Station>)
      ensures best == (match Nearest(stations, productId, fromPosition)
                       case None => None
                       case Some(k) => stations[k])
      ensures best.None? <==> forall j :: 0 <= j < |stations| ==> !Eligible(stations[j], productId)
      ensures best.Some? ==> best.value.productId == productId && best.value.stationPoint.Some?
      ensures best.Some? ==> forall j :: 0 <= j < |stations| && Eligible(stations[j], productId)
                                ==> DistanceTo(best, fromPosition) <= DistanceTo(stations[j], fromPosition)
    {
      var bestIndex: Option<nat> := None;
      best := None;
      for i := 0 to |stations|
        invariant bestIndex == Nearest(stations[..i], productId, fromPosition)
        invariant best == (match bestIndex case None => None case Some(k) => stations[k])
      {
        assert stations[..i + 1][..i] == stations[..i];
        var s := stations[i];
        if s.None? || s.value.productId != productId {
          continue;
        }
        if s.value.stationPoint.None? {
          continue;
        }
        var d := SqDist(fromPosition, s.value.stationPoint.value);
        if best.None? || d < DistanceTo(best, fromPosition) {
          best := s;
          bestIndex := Some(i);
        }
      }
      assert stations[..|stations|] == stations;
      NearestNoneIff(stations, productId, fromPosition);
      if bestIndex.Some? {
        forall j | 0 <= j < |stations| && Eligible(stations[j], productId)
          ensures DistanceTo(best, fromPosition) <= DistanceTo(stations[j], fromPosition)
        {
          NearestIsFirstMinimum(stations, productId, fromPosition, j);
        }
      }
    }
  }
}
